=== FILE: README.md ===
# CANspy core, modelled in Dafny

CANspy is a desktop CAN-bus monitor. Its core is four small Python files:

- the configuration window's receive loop and message table (`config_window.py`);
- the connection dialog's value logic (`connection_dialog.py`);
- the numerically sorting identifier cell `HexIDItem` (`custom_items.py`);
- the placeholder receiver `CANReceiver` (`receiver.py`).

This project models that logic as pure Dafny functions over immutable datatypes. It proves what the code promises about them.

| module | file | models |
|---|---|---|
| `Wrappers` | wrappers.dfy | `Option`, standing in for a missing value or a raised `ValueError` |
| `Text` | text.dfy | decimal text and `int(text)`, the first `\d+` run, substring search (`in`), Python string `<`, `str.replace(pat, "")` |
| `Hex` | hex.dfy | `hex(n)`, `f"{b:02X}"`, the `' '.join` payload text and reading it back, `int(text, 16)` |
| `Frames` | frames.dfy | the per-frame body of `receive_messages`: identifier text, type tag, payload text, and the `last_timestamps` / `counts` tracker with cycle time and count |
| `Table` | table.dfy | the message table and `msgs`: `set_row`, `update_row`, `handle_message`, `handle_overwrite_change` |
| `Window` | window.dfy | the window as a state machine (`running`, Overwrite box, tracker, table) and its invariant |
| `Connection` | connection.dfy | `get_configuration` and `on_bitrate_changed` |
| `HexId` | hexid.dfy | `HexIDItem.__init__` and `HexIDItem.__lt__` |
| `Receiver` | receiver.dfy | `CANReceiver` |

Main results:

- **Identifiers.** The identifier text is `hex()` of the arbitration ID. It reads back as the ID, and distinct IDs give distinct texts, so keying the tracker and `msgs` by text is keying by ID.
- **Payload.** The payload text reads back as the payload bytes (`Hex.PayloadRoundTrip`).
- **Tracker.** After any sequence of frames, `counts[id]` is the number of frames seen for `id`. The stored time is that of the latest such frame. The cycle time is the delta to the previous frame with that ID.
- **Window invariant.** Every reachable window state keeps `msgs` pointing at rows holding its identifiers. In Overwrite mode there is one row per identifier, and the count shown in an identifier's last row is the tracked count.
- **Overwrite run.** A started window left in Overwrite mode shows, after any sequence of frames, exactly one row per identifier seen. The rows are numbered 1..N, and each shows its identifier's latest frame, number of sightings and the delta to the frame before (blank for a single sighting).
- **Deduplication.** Checking the Overwrite box keeps exactly the last row of every identifier, in order, and rebuilds `msgs` to point at them. The imperative pass (group, remove the marked rows from the highest index down, rebuild) computes the same result. On a table that already has one row per identifier it changes nothing.
- **Connection dialog.** `get_configuration` fills in the interface and channel constants, reads the bit rate as kbit/s (500 kbit/s when the field is not an integer), and adds `data_bitrate` only in FD mode when it is present and non-zero.
- **Identifier cell.** `HexIDItem.__lt__` orders identifier texts by value, is irreflexive and asymmetric, but is not transitive (see Findings).

Two behaviours of the code worth noting:

- Identifier texts are lower case (`0x7ff`), as `hex()` writes them.
- Deduplication does not renumber the `#` column. A removed row leaves a gap (`Table.DedupLeavesGapInNumbers`). The weaker fact that no `#` cell falls below its row's position + 1 is kept (`Table.DedupNumbering`).

Source paths below are relative to the repository root.

## Model

| member | source | states |
|---|---|---|
| Text.DecimalText | CANspy/CANspy/src/gui/connection_dialog.py:193 | the decimal text of a number is a non-empty digit string without a leading zero |
| Text.DecimalRoundTrip | CANspy/CANspy/src/gui/connection_dialog.py:193 | reading a number's decimal text gives the number back |
| Text.ParseInt | CANspy/CANspy/src/gui/connection_dialog.py:192-195 | `int(text)` succeeds exactly on digits with an optional leading `-` or `+`; on plain digits it gives their decimal value, after a `-` its negation and after a `+` the value itself, leading zeros allowed |
| Text.ParseIntRoundTrip | CANspy/CANspy/src/gui/connection_dialog.py:192-193 | `int` reads back every number from its decimal text, with or without a minus sign |
| Text.FirstDigitIndex | CANspy/CANspy/src/gui/connection_dialog.py:168 | the search start: no digit before it, and a digit at it unless the text has none |
| Text.FirstDigitRun | CANspy/CANspy/src/gui/connection_dialog.py:168 | `re.search(r"(\d+)")` finds nothing exactly when the text has no digit; a match is a non-empty digit run |
| Text.FirstDigitRunSplit | CANspy/CANspy/src/gui/connection_dialog.py:204-206 | for any digit-free prefix, digit run and rest not starting with a digit, the first run found is exactly that run |
| Text.ContainsIff | CANspy/CANspy/src/gui/connection_dialog.py:207 | `"MBit" in text` holds exactly when the substring occurs at some position |
| Text.LexLessIrreflexive | CANspy/CANspy/src/gui/custom_items.py:19 | Python string `<` never holds between a text and itself |
| Text.LexLessAsymmetric | CANspy/CANspy/src/gui/custom_items.py:19 | string `<` never holds in both directions |
| Text.LexLessTransitive | CANspy/CANspy/src/gui/custom_items.py:19 | string `<` is transitive |
| Text.LexLessTotal | CANspy/CANspy/src/gui/custom_items.py:19 | of two distinct texts, one is string-`<` the other |
| Text.RemoveAll | CANspy/CANspy/src/gui/custom_items.py:14 | `replace(pat, "")` never lengthens the text |
| Text.RemoveAllAbsent | CANspy/CANspy/src/gui/custom_items.py:14 | `replace(pat, "")` leaves a text alone when the pattern's last character never occurs in it |
| Hex.HexCharValue | CANspy/CANspy/src/gui/custom_items.py:14 | a hexadecimal digit of either case has a value below 16 |
| Hex.LowerHexChar | CANspy/CANspy/src/gui/config_window.py:89 | `hex()` writes lower-case digits, each reading back as its value |
| Hex.UpperHexChar | CANspy/CANspy/src/gui/config_window.py:92 | `{:02X}` writes upper-case digits, each reading back as its value |
| Hex.LowerHexCharOfValue | CANspy/CANspy/src/gui/config_window.py:89 | a lower-case digit is the digit written for its own value |
| Hex.ParseHex | CANspy/CANspy/src/gui/custom_items.py:14-15 | the digit part of `int(text, 16)` succeeds exactly on non-empty hexadecimal digit strings |
| Hex.HexDigits | CANspy/CANspy/src/gui/config_window.py:89 | the digits of `hex(n)` are canonical (lower case, no leading zero) and are "0" exactly for 0 |
| Hex.PyHex | CANspy/CANspy/src/gui/config_window.py:89 | `hex(n)` is `0x` followed by canonical digits that read back as `n` |
| Hex.HexRoundTrip | CANspy/CANspy/src/gui/config_window.py:89 | the digits of `hex(n)` read back as `n` |
| Hex.HexValuePositive | CANspy/CANspy/src/gui/config_window.py:89 | digits with a non-zero leading digit have a positive value |
| Hex.CanonicalRoundTrip | CANspy/CANspy/src/gui/config_window.py:89 | every canonical digit string is the `hex()` digits of its own value |
| Hex.PyHexInjective | CANspy/CANspy/src/gui/config_window.py:89 | two identifiers have the same `hex()` text exactly when they are equal |
| Hex.ByteHex | CANspy/CANspy/src/gui/config_window.py:92 | `f"{b:02X}"` is two upper-case digits that read back as the byte |
| Hex.RenderPayload | CANspy/CANspy/src/gui/config_window.py:92 | the payload text is empty exactly for an empty payload, else three characters per byte minus one |
| Hex.RenderPayloadPair | CANspy/CANspy/src/gui/config_window.py:92 | byte `i` is written as its two-digit pair at offset `3 * i` |
| Hex.RenderPayloadSpace | CANspy/CANspy/src/gui/config_window.py:92 | the pairs are separated by single spaces |
| Hex.PayloadRoundTrip | CANspy/CANspy/src/gui/config_window.py:92 | the payload text reads back as exactly the payload bytes |
| Hex.PayloadInjective | CANspy/CANspy/src/gui/config_window.py:92 | two payloads have the same text exactly when they are equal |
| Frames.CanId | CANspy/CANspy/src/gui/config_window.py:89 | the identifier text is `0x` followed by canonical digits that read back as the arbitration ID |
| Frames.TypeTag | CANspy/CANspy/src/gui/config_window.py:90 | the tag is "FD" exactly for FD frames and "STD" exactly for the others |
| Frames.Observe | CANspy/CANspy/src/gui/config_window.py:93-109 | a first sighting has no cycle time and count 1. A later one reports the delta in ms and the incremented count. A first sighting stores count 1 whatever the other table holds. When the time is known but the count is not, it has no cycle time and count 1 and the counts are untouched. The time is always stored, no other entry changes, and when both tables agree they still agree |
| Frames.ReceiveRecord | CANspy/CANspy/src/gui/config_window.py:84-122 | the record has the caller's timestamp text, the `hex()` ID, the type tag, the DLC, the upper-case `02X` payload text, which reads back as the bytes, the count and the Overwrite state. The new tracker, cycle time and count are those of one sighting of the ID at the frame's time, and neither table changes at any other ID |
| Frames.LastFrame | CANspy/CANspy/src/gui/config_window.py:97-102 | the latest frame with an identifier text carries that text |
| Frames.SeenIds | CANspy/CANspy/src/gui/config_window.py:97-107 | an identifier is among those seen exactly when some frame carried it |
| Frames.HistorySnoc | CANspy/CANspy/src/gui/config_window.py:97-107 | one more frame adds one sighting of its ID and becomes that ID's latest frame, the former latest becoming the previous one; other IDs are unaffected |
| Frames.PrevFrame | CANspy/CANspy/src/gui/config_window.py:97-102 | the frame before the latest one with an identifier text carries that text |
| Frames.OwnSnoc | CANspy/CANspy/src/gui/config_window.py:97-104 | one more frame adds one sighting of its ID, becomes its latest frame, and the former latest becomes the previous one |
| Frames.TrackerAt | CANspy/CANspy/src/gui/config_window.py:97-107 | after any frames, both tables agree; an ID is tracked exactly when seen, with the number of its frames and the time of its latest one |
| Frames.TrackerReflectsHistory | CANspy/CANspy/src/gui/config_window.py:97-107 | the statement of `TrackerAt` for every identifier at once |
| Frames.ObserveAfterHistory | CANspy/CANspy/src/gui/config_window.py:93-109 | after a history, a frame's cycle time is empty on its first sighting, otherwise the delta to its ID's previous frame; its count is its ID's number of sightings |
| Frames.CycleAfterHistory | CANspy/CANspy/src/gui/config_window.py:97-102 | over the history including the frame: blank on a single sighting, otherwise the delta in ms to the previous frame with that ID |
| Frames.RecordAfterHistory | CANspy/CANspy/src/gui/config_window.py:84-122 | the record of a frame after a history: the tracker becomes the longer history's, the count is the ID's number of sightings and the cycle time the delta to the previous frame with that ID |
| Frames.SecondSightingExample | CANspy/CANspy/src/gui/config_window.py:97-104 | 0x100 seen at 1.0 s then 1.25 s: cycle time 250 ms, count 2 |
| Frames.RenderingExample | CANspy/CANspy/src/gui/config_window.py:89-92 | ID 0x7FF with bytes DE AD is shown as "0x7ff", "DE AD", "STD" |
| Table.SetRow | CANspy/CANspy/src/gui/config_window.py:179-187 | a new row shows every field of the record, its ID, and `#` = index + 1 |
| Table.UpdateRow | CANspy/CANspy/src/gui/config_window.py:189-195 | a rewritten row shows the record's fields but keeps its `#` and CAN ID cells |
| Table.HandleMessage | CANspy/CANspy/src/gui/config_window.py:134-156 | in Overwrite mode a known ID's row is rewritten in place and nothing else changes. Otherwise a row is appended after all existing rows, and in Overwrite mode `msgs` maps the ID to it |
| Table.HandleMessageKeepsMsgsValid | CANspy/CANspy/src/gui/config_window.py:144-156 | `msgs` keeps pointing at rows that hold its IDs |
| Table.HandleMessageKeepsOneRowPerId | CANspy/CANspy/src/gui/config_window.py:144-152 | in Overwrite mode one row per ID is kept and the table's IDs grow by exactly the record's |
| Table.HandleMessageKeepsNumbering | CANspy/CANspy/src/gui/config_window.py:149-156 | rows never move, so a contiguous `#` column stays contiguous and no `#` falls below position + 1 |
| Table.KeptIndices | CANspy/CANspy/src/gui/config_window.py:161-172 | every surviving index lies in the scanned range |
| Table.KeptIndicesSound | CANspy/CANspy/src/gui/config_window.py:161-169 | every row kept is the last row of its ID |
| Table.KeptIndicesIncreasing | CANspy/CANspy/src/gui/config_window.py:170-172 | kept rows stay in their original order |
| Table.KeptIndicesComplete | CANspy/CANspy/src/gui/config_window.py:161-169 | every last row of an ID is kept |
| Table.KeptRowsAtIndices | CANspy/CANspy/src/gui/config_window.py:170-172 | the rows left are exactly the rows at the kept indices |
| Table.KeptFacts | CANspy/CANspy/src/gui/config_window.py:161-172 | the four facts above together |
| Table.RowIndex | CANspy/CANspy/src/gui/config_window.py:174-177 | the rebuilt `msgs` has exactly the table's IDs as keys, each mapped to a row holding it |
| Table.RowIndexLast | CANspy/CANspy/src/gui/config_window.py:174-177 | the rebuilt `msgs` maps an ID to its last row |
| Table.RowIndexPointsToLast | CANspy/CANspy/src/gui/config_window.py:174-177 | the rebuilt `msgs` maps every ID to its last row |
| Table.LastOccurrence | CANspy/CANspy/src/gui/config_window.py:161-169 | every row has a last row with its ID at or after it |
| Table.DistinctIdsCount | CANspy/CANspy/src/gui/config_window.py:158-177 | a table with one row per ID has as many rows as IDs |
| Table.DedupKeepsLastRows | CANspy/CANspy/src/gui/config_window.py:158-177 | after deduplication each ID appears once, no ID is lost, there are as many rows as IDs, and every last row survives |
| Table.KeepLastDistinct | CANspy/CANspy/src/gui/config_window.py:161-172 | no ID survives deduplication twice |
| Table.KeepLastIds | CANspy/CANspy/src/gui/config_window.py:161-172 | every ID survives, through its last row |
| Table.DedupIdempotent | CANspy/CANspy/src/gui/config_window.py:158-177 | a table with one row per ID is left unchanged |
| Table.KeptRowsOfDistinct | CANspy/CANspy/src/gui/config_window.py:161-172 | with distinct IDs every row is kept, in order |
| Table.AtLeastPosition | CANspy/CANspy/src/gui/config_window.py:170-172 | in an increasing list of indices, entry `a` is at least `a` |
| Table.HandleOverwriteChange | CANspy/CANspy/src/gui/config_window.py:158-177 | unchecking changes nothing. Checking keeps the last row of every ID and rebuilds `msgs` over them: one row per ID, the same ID set, as many rows as IDs |
| Table.MarkDuplicates | CANspy/CANspy/src/gui/config_window.py:161-169 | the rows marked for removal are exactly those that are not the last of their ID |
| Table.KeptSplit | CANspy/CANspy/src/gui/config_window.py:170-172 | the kept rows before a position followed by those after it are all the kept rows |
| Table.DropMarked | CANspy/CANspy/src/gui/config_window.py:170-172 | removing the marked rows one at a time from the highest index down leaves the last row of every ID, in order |
| Table.RebuildIndex | CANspy/CANspy/src/gui/config_window.py:173-177 | the scan builds the row index; on distinct IDs each ID maps to its own row |
| Table.DeduplicateRows | CANspy/CANspy/src/gui/config_window.py:158-177 | the three-step pass yields the deduplicated table, with distinct IDs, the original ID set, and `msgs` mapping each ID to its row |
| Table.DedupNumbering | CANspy/CANspy/src/gui/config_window.py:170-172 | no surviving `#` cell falls below its new position + 1 |
| Table.DedupLeavesGapInNumbers | CANspy/CANspy/src/gui/config_window.py:170-177 | rows 0x1, 0x2, 0x1 numbered 1..3 become rows numbered 2 and 3: the `#` column is not renumbered |
| Window.StartReceiving | CANspy/CANspy/src/gui/config_window.py:62-69 | afterwards the window is running; when already running nothing changes |
| Window.StopReceiving | CANspy/CANspy/src/gui/config_window.py:197-201 | afterwards the window is stopped; when already stopped nothing changes |
| Window.ReceiveFrame | CANspy/CANspy/src/gui/config_window.py:80-122 | a stopped window processes no frame; a frame never changes the running or Overwrite state and adds at most one row. The tracker takes one sighting of the frame's ID. In append mode the table gains exactly one row, numbered after the last, showing the frame's time text, ID, type, DLC, upper-case payload, cycle time and count, and `msgs` is untouched |
| Window.SetOverwrite | CANspy/CANspy/src/gui/config_window.py:158-177 | the box takes the new state. Unchecking leaves the table alone. Checking keeps exactly the last row of every ID, unchanged and in order, rebuilds `msgs` over them, and leaves one row per ID with the same ID set |
| Window.AppendKeepsCountsShown | CANspy/CANspy/src/gui/config_window.py:149-156 | appending a row with the bumped count keeps every ID's last row showing its tracked count |
| Window.UpdateKeepsCountsShown | CANspy/CANspy/src/gui/config_window.py:145-147 | rewriting an ID's only row with the bumped count keeps the shown counts right |
| Window.InitialInv | CANspy/CANspy/src/gui/config_window.py:54-57 | a new window (stopped, Overwrite checked, empty tables) satisfies the invariant |
| Window.StartStopPreserveInv | CANspy/CANspy/src/gui/config_window.py:62-69 | start and stop keep the invariant |
| Window.ReceiveFrameKeepsCountsShown | CANspy/CANspy/src/gui/config_window.py:96-156 | after a frame, every shown ID is tracked and its last row shows the tracked count |
| Window.ReceiveFramePreservesInv | CANspy/CANspy/src/gui/config_window.py:84-156 | a received frame keeps the invariant in both modes |
| Window.SetOverwritePreservesInv | CANspy/CANspy/src/gui/config_window.py:158-177 | toggling Overwrite keeps the invariant |
| Window.OverwriteRunOwnRow | CANspy/CANspy/src/gui/config_window.py:97-152 | in Overwrite mode a frame's own row shows it, its ID's grown count and the delta to the previous frame with that ID |
| Window.RecordShowsLatest | CANspy/CANspy/src/gui/config_window.py:84-152 | a row showing a frame's record shows its ID's latest frame, sighting count and cycle time over the longer history |
| Window.ShowsLatestSnoc | CANspy/CANspy/src/gui/config_window.py:97-107 | a row showing an ID's latest frame still does after a frame with another ID |
| Window.OverwriteRunOtherRow | CANspy/CANspy/src/gui/config_window.py:144-152 | in Overwrite mode the rows of other IDs still show their latest frames |
| Window.OverwriteRunStep | CANspy/CANspy/src/gui/config_window.py:80-156 | one more frame in Overwrite mode keeps the run state for the longer history |
| Window.OverwriteRunInvariant | CANspy/CANspy/src/gui/config_window.py:80-156 | after any frames in Overwrite mode the tracker is the history's, with one contiguous row per ID seen, each showing its latest frame |
| Window.OverwriteRunShowsLatest | CANspy/CANspy/src/gui/config_window.py:80-156 | after any frames in Overwrite mode there is one row per ID seen, numbered 1..N, each showing its ID's latest frame, sighting count and the delta to its previous frame |
| Connection.NominalBitrate | CANspy/CANspy/src/gui/connection_dialog.py:191-195 | an integer field gives 1000 times its value; anything else gives 500000 |
| Connection.NominalBitrateOfDecimal | CANspy/CANspy/src/gui/connection_dialog.py:191-195 | any integer written in the field, signed or not, comes back as that many kbit/s |
| Connection.LabelRate | CANspy/CANspy/src/gui/connection_dialog.py:204-210 | a label without digits gives no rate; otherwise the rate is non-negative |
| Connection.DataBitrate | CANspy/CANspy/src/gui/connection_dialog.py:199-210 | "Same as Nominal" gives the nominal rate; any other label gives its own rate |
| Connection.DataBitrateOfLabel | CANspy/CANspy/src/gui/connection_dialog.py:204-210 | for a label with a digit-free prefix, a digit run and a non-digit rest, the rate is the run times 1 000 000 with "MBit" in the label and times 1000 otherwise |
| Connection.MBitPresetRate | CANspy/CANspy/src/gui/connection_dialog.py:204-208 | a "<n> MBit/s" label gives n × 1 000 000 |
| Connection.EightMBitExample | CANspy/CANspy/src/gui/connection_dialog.py:204-208 | "8 MBit/s" gives 8 000 000 |
| Connection.GetConfiguration | CANspy/CANspy/src/gui/connection_dialog.py:186-232 | interface "pcan" and channel "PCAN_USBBUS1" whatever is selected, and FD exactly in "CAN FD" mode. The bit rate is the field in kbit/s or 500000. `data_bitrate` is present exactly in FD mode when the computed rate exists and is non-zero, and then equals it |
| Connection.DefaultFdConfigurationExample | CANspy/CANspy/src/gui/connection_dialog.py:186-232 | FD mode with "500" and "2 MBit/s" gives pcan / PCAN_USBBUS1 / 500000 / FD / 2 000 000 |
| Connection.OnBitrateChanged | CANspy/CANspy/src/gui/connection_dialog.py:165-171 | the field is enabled exactly for "Custom". Any other preset with digits writes its first digit run; otherwise the text stays |
| Connection.FiveHundredKBitExample | CANspy/CANspy/src/gui/connection_dialog.py:165-171 | "500 kBit/s" writes "500" and disables the field |
| Connection.OneMBitPresetGivesOneKBit | CANspy/CANspy/src/gui/connection_dialog.py:165-171 | "1 MBit/s" writes "1", which the field's kbit/s reading turns into 1000 bit/s, while the label names 1 000 000 |
| Connection.OnBitrateChangedInKBit | CANspy/CANspy/src/gui/connection_dialog.py:165-171 | corrected: whatever preset with digits is chosen, the field read as kbit/s gives exactly the rate the label names |
| HexId.Normalize | CANspy/CANspy/src/gui/custom_items.py:4-8 | a leading "0X" becomes "0x" and the rest is kept; any other text is stored unchanged |
| HexId.NormalizeIdempotent | CANspy/CANspy/src/gui/custom_items.py:6-7 | normalising twice is normalising once |
| HexId.StripPrefixes | CANspy/CANspy/src/gui/custom_items.py:14-15 | removing the prefixes never lengthens the text |
| HexId.UnsignedHex | CANspy/CANspy/src/gui/custom_items.py:14-15 | after the sign, an optional `0x`/`0X` is skipped; plain digits read as their value |
| HexId.PyIntHex | CANspy/CANspy/src/gui/custom_items.py:14-15 | `int(text, 16)` reads plain digits as their value and gives a negative value only after a leading `-` |
| HexId.PyIntHexNegative | CANspy/CANspy/src/gui/custom_items.py:14-15 | a leading `-` negates the value of the digits after it |
| HexId.StripPyHex | CANspy/CANspy/src/gui/custom_items.py:14-15 | an identifier text as the receive loop writes it reads back as its ID once the prefix is removed |
| HexId.HexLessOrdersIdentifiers | CANspy/CANspy/src/gui/custom_items.py:10-16 | identifier cells compare exactly as their IDs do |
| HexId.NumericExample | CANspy/CANspy/src/gui/custom_items.py:12-16 | "0x9" sorts before "0x10" and not after |
| HexId.FallbackExample | CANspy/CANspy/src/gui/custom_items.py:17-19 | "0x" does not read as hexadecimal, so string order puts it before "0x1" |
| HexId.SignedExample | CANspy/CANspy/src/gui/custom_items.py:12-16 | "-2" sorts before "-1" by value, although as strings "-1" comes first |
| HexId.HexLessIrreflexive | CANspy/CANspy/src/gui/custom_items.py:10-19 | no cell sorts before itself |
| HexId.HexLessAsymmetric | CANspy/CANspy/src/gui/custom_items.py:10-19 | two cells never sort before each other |
| HexId.HexLessCycle | CANspy/CANspy/src/gui/custom_items.py:10-19 | "0x9" < "0x10" < "0x1z" < "0x9": the comparison is not transitive |
| HexId.HexLessConsistentAgrees | CANspy/CANspy/src/gui/custom_items.py:10-19 | the corrected comparison agrees with `__lt__` whenever both texts read as hexadecimal or neither does |
| HexId.HexLessConsistentIrreflexive | CANspy/CANspy/src/gui/custom_items.py:10-19 | the corrected comparison is irreflexive |
| HexId.HexLessConsistentTransitive | CANspy/CANspy/src/gui/custom_items.py:10-19 | the corrected comparison is transitive |
| Receiver.New | CANspy/CANspy/src/can/receiver.py:2-3 | a new receiver is not receiving |
| Receiver.StartReceiving | CANspy/CANspy/src/can/receiver.py:5-9 | afterwards it is receiving; starting again changes nothing |
| Receiver.StopReceiving | CANspy/CANspy/src/can/receiver.py:11-15 | afterwards it is stopped; stopping again changes nothing |
| Receiver.ReceiveMessage | CANspy/CANspy/src/can/receiver.py:17-22 | a message exactly while receiving, and then the sample message |
| Receiver.StartStopIdempotent | CANspy/CANspy/src/can/receiver.py:5-22 | start and stop are idempotent and decide what the next read returns |

## Left out

- The Qt widgets, layouts, labels, help, mode-visibility handler and default-value setter. They hold no logic beyond what is modelled; widget values are plain parameters.
- The bus itself (`can.interface.Bus`, `recv`, `shutdown`), the receive thread, `join` and the queued signal are left out. A received frame is one call of `Window.ReceiveFrame`. The race between a frame in flight and `stop_receiving`, or a toggle of the Overwrite box, is not modelled. The record carries the box state read when the frame arrived, as in the code.
- The receive loop always opens the bus at 500000 bit/s on pcan / PCAN_USBBUS1, whatever the dialog says. Only the FD flag comes from the window. That configuration is not part of the model.
- Error text written to the status label, and the `print` calls in `CANReceiver`, are left out.
- Timestamp text (`strftime`/`localtime` plus milliseconds, or `str()` on failure) is a caller-supplied function `stamp: real -> string`. Clocks and time zones are outside the model.
- Timestamps are exact reals rather than floats. The cycle time is the exact delta times 1000; its `"%.2f ms"` rendering is represented by the `Cycle` datatype.
- Table cells hold numbers and datatypes rather than `str()` text. The `#`, length and count cells are naturals.
- Connection.LabelRate: its own contract states only when a rate exists and that it is non-negative. The value is stated by `Connection.DataBitrateOfLabel` and `Connection.MBitPresetRate`.
- Window.ReceiveFrame: its own contract states the append-mode row exactly, but in Overwrite mode only the row count. What an Overwrite-mode frame does to the table is stated by `Window.ReceiveFramePreservesInv` and the Overwrite-run lemmas.
- Text.ParseInt: models only an optional sign followed by ASCII digits. Python's `int()` also accepts surrounding whitespace, underscores between digits and non-ASCII decimal digits; those inputs are treated as errors here. Python 3.11 and later also reject a text of more than 4300 digits, where the field then falls back to 500000; `Connection.NominalBitrate` gives 1000 times the value at any length.
- Text.FirstDigitRun: `\d` matches only ASCII digits here; Python's `\d` also matches other Unicode decimal digits.
- HexId.PyIntHex: models a leading sign, a `0x`/`0X` prefix and hexadecimal digits. Surrounding whitespace, underscores and non-ASCII decimal digits (such as Arabic-Indic digits), which `int(text, 16)` also accepts, are treated as errors here; such a text falls back to string order in `HexId.HexLess`.
- `main.py` calls `clear_table`, which the window does not define. No such operation is modelled.
- `usb2can.py`, `types/index.py`, `setup.py`, `test_pcan.py` and `main.py` are not part of this model.

## Findings

| source | as written | input that shows it | evidently intended | confidence | as-written member | corrected member |
|---|---|---|---|---|---|---|
| CANspy/CANspy/src/gui/connection_dialog.py:165-171 | choosing a bit-rate preset copies its first digit run into a field that `get_configuration` reads as kbit/s (lines 191-193) | preset "1 MBit/s" puts "1" in the field, giving 1000 bit/s | the field receives the preset's rate in kbit/s ("1000"), giving 1 000 000 bit/s | high, not executed | Connection.OneMBitPresetGivesOneKBit | Connection.OnBitrateChangedInKBit |
| CANspy/CANspy/src/gui/custom_items.py:10-19 | `__lt__` compares by value when both texts read as hexadecimal and falls back to string order otherwise | "0x9" < "0x10" by value, "0x10" < "0x1z" and "0x1z" < "0x9" as strings: a cycle, so sorting a column with such texts has no consistent order | a strict order, e.g. hexadecimal texts by value, before all others by string order | medium, not executed | HexId.HexLessCycle | HexId.HexLessConsistentTransitive |

=== FILE: connection.dfy ===
/**
 * The connection dialog's value logic: `get_configuration`, which turns the
 * widget values into the bus configuration, and `on_bitrate_changed`, which
 * copies the number of a bit-rate preset into the manual bit-rate field.
 * Widget values are plain parameters.
 */
module Connection {
  import opened Wrappers
  import opened Text

  /** The configuration dictionary; `dataBitrate` is None when the key is absent. */
  datatype Config = Config(interface: string, channel: string, bitrate: int, fd: bool, dataBitrate: Option<int>)

  /** The manual bit-rate field: its text and whether it accepts input. */
  datatype BitrateField = BitrateField(text: string, enabled: bool)

  const DefaultBitrate: int := 500000
  const SameAsNominal := "Same as Nominal"
  const CustomPreset := "Custom"

  /** The nominal bit rate: the field's text read as kbit/s, or 500 kbit/s when it is not an integer. */
  function NominalBitrate(text: string): (b: int)
    ensures ParseInt(text).Some? ==> b == 1000 * ParseInt(text).value
    ensures ParseInt(text).None? ==> b == DefaultBitrate
  {
    match ParseInt(text)
    case Some(n) => n * 1000
    case None => DefaultBitrate
  }

  /** Whatever integer the field holds, in decimal, comes back as that many kbit/s. */
  lemma NominalBitrateOfDecimal(n: nat)
    ensures NominalBitrate(DecimalText(n)) == n * 1000
    ensures NominalBitrate("-" + DecimalText(n)) == -(n * 1000)
  {
    ParseIntRoundTrip(n);
  }

  /**
   * The rate a preset label names: its first digit run, in MBit/s when the label
   * contains "MBit" and in kbit/s otherwise; None when the label has no digits.
   */
  function LabelRate(preset: string): (r: Option<int>)
    ensures r.None? <==> NoDigits(preset)
    ensures r.Some? ==> r.value >= 0
  {
    match FirstDigitRun(preset)
    case None => None
    case Some(run) =>
      var value := DecimalValue(run);
      if Contains(preset, "MBit") then Some(value * 1000000) else Some(value * 1000)
  }

  /** The data-phase bit rate for FD mode: the nominal rate for "Same as Nominal", else the label's rate. */
  function DataBitrate(preset: string, bitrate: int): (r: Option<int>)
    ensures preset == SameAsNominal ==> r == Some(bitrate)
    ensures preset != SameAsNominal ==> r == LabelRate(preset)
  {
    if preset == SameAsNominal then Some(bitrate) else LabelRate(preset)
  }

  /**
   * `get_configuration`. `mode` is the mode selector's text, `bitrateText` the
   * manual field, `dataRateLabel` the data bit-rate selector and `selected` the
   * text of the selected hardware entry, if any; the channel is the same for
   * every selection. `data_bitrate` is added only in FD mode and only when the
   * computed value is neither missing nor zero.
   */
  function GetConfiguration(mode: string, bitrateText: string, dataRateLabel: string, selected: Option<string>): (c: Config)
    ensures c.interface == "pcan" && c.channel == "PCAN_USBBUS1"
    ensures c.fd <==> mode == "CAN FD"
    ensures ParseInt(bitrateText).Some? ==> c.bitrate == 1000 * ParseInt(bitrateText).value
    ensures ParseInt(bitrateText).None? ==> c.bitrate == 500000
    ensures !c.fd ==> c.dataBitrate.None?
    ensures c.dataBitrate.Some? <==>
      c.fd && DataBitrate(dataRateLabel, c.bitrate).Some? && DataBitrate(dataRateLabel, c.bitrate).value != 0
    ensures c.dataBitrate.Some? ==> c.dataBitrate == DataBitrate(dataRateLabel, c.bitrate)
    ensures c.fd && dataRateLabel == SameAsNominal && c.bitrate != 0 ==> c.dataBitrate == Some(c.bitrate)
  {
    var isFd := mode == "CAN FD";
    var bitrate := NominalBitrate(bitrateText);
    var data := if isFd then DataBitrate(dataRateLabel, bitrate) else None;
    var channel := "PCAN_USBBUS1";
    var dataKey := if isFd && data.Some? && data.value != 0 then data else None;
    Config("pcan", channel, bitrate, isFd, dataKey)
  }

  /** The data bit rate of a label split into a digit-free prefix, a digit run and a rest. */
  lemma DataBitrateOfLabel(p: string, d: string, q: string, bitrate: int)
    requires NoDigits(p) && |d| > 0 && AllDigits(d) && (|q| == 0 || !IsDigit(q[0]))
    requires p + d + q != SameAsNominal
    ensures Contains(p + d + q, "MBit") ==> DataBitrate(p + d + q, bitrate) == Some(DecimalValue(d) * 1000000)
    ensures !Contains(p + d + q, "MBit") ==> DataBitrate(p + d + q, bitrate) == Some(DecimalValue(d) * 1000)
  {
    FirstDigitRunSplit(p, d, q);
  }

  /** A label "<digits> MBit/s" contains "MBit" right after its digits. */
  lemma MBitOccurs(d: string)
    ensures Contains(d + " MBit/s", "MBit")
  {
    var s := d + " MBit/s";
    assert s[|d| + 1..|d| + 5] == "MBit" by {
      forall k | 0 <= k < 4
        ensures s[|d| + 1 + k] == "MBit"[k]
      {
        assert s[|d| + 1 + k] == " MBit/s"[1 + k];
      }
    }
    ContainsAt(s, "MBit", |d| + 1);
  }

  /** A preset written "<digits> MBit/s" names that many MBit/s. */
  lemma MBitPresetRate(d: string)
    requires |d| > 0 && AllDigits(d)
    ensures LabelRate(d + " MBit/s") == Some(DecimalValue(d) * 1000000)
  {
    var s := d + " MBit/s";
    assert s == "" + d + " MBit/s";
    FirstDigitRunSplit("", d, " MBit/s");
    MBitOccurs(d);
  }

  /** "8 MBit/s" gives a data bit rate of 8 000 000 bit/s. */
  lemma EightMBitExample()
    ensures DataBitrate("8 MBit/s", 500000) == Some(8000000)
  {
    MBitPresetRate("8");
    assert "8" + " MBit/s" == "8 MBit/s";
  }

  /** The dialog's defaults in FD mode: 500 kbit/s nominal and 2 MBit/s data phase. */
  lemma DefaultFdConfigurationExample()
    ensures GetConfiguration("CAN FD", "500", "2 MBit/s", None)
         == Config("pcan", "PCAN_USBBUS1", 500000, true, Some(2000000))
  {
    MBitPresetRate("2");
    assert "2" + " MBit/s" == "2 MBit/s";
    assert NominalBitrate("500") == 500000 by {
      assert DecimalText(500) == "500";
      NominalBitrateOfDecimal(500);
    }
  }

  /**
   * `on_bitrate_changed`. Any preset but "Custom" copies its first digit run
   * into the field (a preset without digits leaves the text alone); the field
   * accepts input exactly when "Custom" is chosen.
   */
  function OnBitrateChanged(preset: string, field: BitrateField): (f: BitrateField)
    ensures f.enabled <==> preset == CustomPreset
    ensures preset == CustomPreset || NoDigits(preset) ==> f.text == field.text
    ensures preset != CustomPreset && !NoDigits(preset) ==>
      |f.text| > 0 && AllDigits(f.text) && FirstDigitRun(preset) == Some(f.text)
  {
    var text :=
      if preset != CustomPreset then
        match FirstDigitRun(preset)
        case Some(run) => run
        case None => field.text
      else field.text;
    BitrateField(text, preset == CustomPreset)
  }

  /** "500 kBit/s" puts "500" into the field. */
  lemma FiveHundredKBitExample(field: BitrateField)
    ensures OnBitrateChanged("500 kBit/s", field) == BitrateField("500", false)
  {
    assert "500 kBit/s" == "" + "500" + " kBit/s";
    FirstDigitRunSplit("", "500", " kBit/s");
  }

  /**
   * As written, the "1 MBit/s" preset puts "1" into a field read as kbit/s, so the
   * configuration asks for 1000 bit/s although the label names 1 000 000 bit/s.
   */
  lemma OneMBitPresetGivesOneKBit(field: BitrateField)
    ensures var f := OnBitrateChanged("1 MBit/s", field);
      f.text == "1" && NominalBitrate(f.text) == 1000 && LabelRate("1 MBit/s") == Some(1000000)
  {
    assert "1 MBit/s" == "" + "1" + " MBit/s";
    FirstDigitRunSplit("", "1", " MBit/s");
    assert "1 MBit/s"[2..6] == "MBit";
    ContainsAt("1 MBit/s", "MBit", 2);
  }

  /**
   * `on_bitrate_changed` as evidently intended: the field is in kbit/s, so a preset
   * in MBit/s writes its rate scaled to kbit/s.
   */
  function OnBitrateChangedInKBit(preset: string, field: BitrateField): (f: BitrateField)
    ensures f.enabled <==> preset == CustomPreset
    ensures preset == CustomPreset || NoDigits(preset) ==> f.text == field.text
    ensures preset != CustomPreset && !NoDigits(preset) ==>
      LabelRate(preset).Some? && NominalBitrate(f.text) == LabelRate(preset).value
  {
    var text :=
      if preset != CustomPreset then
        match FirstDigitRun(preset)
        case Some(run) =>
          if Contains(preset, "MBit") then
            ParseIntRoundTrip(DecimalValue(run) * 1000);
            DecimalText(DecimalValue(run) * 1000)
          else run
        case None => field.text
      else field.text;
    BitrateField(text, preset == CustomPreset)
  }
}

=== FILE: frames.dfy ===
/**
 * The per-frame body of the receive loop: turning a received frame into the record
 * handed to the table (identifier text, type tag, length, payload text, cycle time,
 * occurrence count), together with the per-identifier `last_timestamps` / `counts`
 * tables it reads and updates.
 */
module Frames {
  import opened Wrappers
  import opened Hex

  /** A frame as the bus returns it; the timestamp is in seconds, kept exact. */
  datatype RawFrame = RawFrame(arbitrationId: nat, data: seq<byte>, isFd: bool, dlc: nat, timestamp: real)

  /** The cycle-time cell: empty on a first sighting, otherwise a delta in milliseconds. */
  datatype Cycle = NoCycle | CycleMs(ms: real)

  /** The dictionary emitted to the table for every received frame. */
  datatype FrameRecord = FrameRecord(
    timestamp: string,
    canId: string,
    msgType: string,
    length: nat,
    data: string,
    cycleTime: Cycle,
    count: nat,
    overwrite: bool)

  /** `last_timestamps` and `counts`, both keyed by the identifier's `hex()` text. */
  datatype Tracker = Tracker(lastTimestamps: map<string, real>, counts: map<string, nat>)

  const EmptyTracker := Tracker(map[], map[])

  /** Both tables know the same identifiers: the lookup of `counts[can_id]` never fails. */
  predicate KeysAgree(t: Tracker) {
    t.lastTimestamps.Keys == t.counts.Keys
  }

  /** What one sighting of an identifier yields: the updated tables, the cycle time and the count. */
  datatype Observation = Observation(tracker: Tracker, cycle: Cycle, count: nat)

  /** The key under which a frame is tracked and displayed. */
  function CanId(f: RawFrame): (id: string)
    ensures |id| >= 3 && id[..2] == "0x" && Canonical(id[2..])
    ensures ParseHex(id[2..]) == Some(f.arbitrationId)
  {
    PyHex(f.arbitrationId)
  }

  /** `"FD"` for a flexible-data-rate frame, `"STD"` otherwise. */
  function TypeTag(isFd: bool): (tag: string)
    ensures tag == "FD" <==> isFd
    ensures tag == "STD" <==> !isFd
  {
    if isFd then "FD" else "STD"
  }

  /**
   * One sighting of `id` at time `ts`. A later sighting reports the delta to the
   * stored time in milliseconds and overwrites the stored time even when the
   * delta is zero or negative. If the time is known but the count is not, the
   * increment raises, the handler blanks the cycle time and the count shown is 1,
   * but the new time has already been stored.
   */
  function Observe(t: Tracker, id: string, ts: real): (o: Observation)
    ensures id in o.tracker.lastTimestamps && o.tracker.lastTimestamps[id] == ts
    ensures o.tracker.lastTimestamps - {id} == t.lastTimestamps - {id}
    ensures o.tracker.counts - {id} == t.counts - {id}
    ensures o.count >= 1
    ensures id !in t.lastTimestamps ==> o.cycle == NoCycle && o.count == 1
    ensures id !in t.lastTimestamps ==> id in o.tracker.counts && o.tracker.counts[id] == 1
    ensures id in t.lastTimestamps && id in t.counts ==>
      o.cycle == CycleMs((ts - t.lastTimestamps[id]) * 1000.0) && o.count == t.counts[id] + 1
    ensures id in t.lastTimestamps && id !in t.counts ==>
      o.cycle == NoCycle && o.count == 1 && o.tracker.counts == t.counts
    ensures KeysAgree(t) ==> KeysAgree(o.tracker) && o.tracker.counts[id] == o.count
    ensures KeysAgree(t) ==> o.tracker.counts.Keys == t.counts.Keys + {id}
  {
    if id in t.lastTimestamps then
      var prev := t.lastTimestamps[id];
      var times := t.lastTimestamps[id := ts];
      if id in t.counts then
        var n := t.counts[id] + 1;
        Observation(Tracker(times, t.counts[id := n]), CycleMs((ts - prev) * 1000.0), n)
      else
        Observation(Tracker(times, t.counts), NoCycle, 1)
    else
      Observation(Tracker(t.lastTimestamps[id := ts], t.counts[id := 1]), NoCycle, 1)
  }

  /** The tables after the receive loop and the record it emits for one frame. */
  datatype Received = Received(tracker: Tracker, record: FrameRecord)

  /**
   * The record for frame `f`; `stamp` is the local-time text of its timestamp and
   * `overwrite` the state of the Overwrite box when the frame arrives.
   */
  function ReceiveRecord(t: Tracker, f: RawFrame, stamp: string, overwrite: bool): (r: Received)
    ensures r.record.timestamp == stamp && r.record.overwrite == overwrite
    ensures var id := r.record.canId;
      |id| >= 3 && id[..2] == "0x" && Canonical(id[2..]) && ParseHex(id[2..]) == Some(f.arbitrationId)
    ensures r.record.msgType == "FD" <==> f.isFd
    ensures r.record.msgType == "STD" <==> !f.isFd
    ensures r.record.length == f.dlc
    ensures r.record.data == RenderPayload(f.data) && DecodePayload(r.record.data) == Some(f.data)
    ensures |f.data| == 0 <==> r.record.data == ""
    ensures r.record.count >= 1
    ensures r.record.canId !in t.lastTimestamps ==> r.record.cycleTime == NoCycle && r.record.count == 1
    ensures KeysAgree(t) ==>
              && KeysAgree(r.tracker)
              && r.record.canId in r.tracker.counts
              && r.tracker.counts[r.record.canId] == r.record.count
              && r.tracker.counts.Keys == t.counts.Keys + {r.record.canId}
    ensures r.tracker.counts - {r.record.canId} == t.counts - {r.record.canId}
    ensures r.tracker.lastTimestamps - {r.record.canId} == t.lastTimestamps - {r.record.canId}
    ensures var o := Observe(t, r.record.canId, f.timestamp);
      r.tracker == o.tracker && r.record.cycleTime == o.cycle && r.record.count == o.count
  {
    var id := CanId(f);
    var o := Observe(t, id, f.timestamp);
    PayloadRoundTrip(f.data);
    Received(o.tracker, FrameRecord(stamp, id, TypeTag(f.isFd), f.dlc, RenderPayload(f.data), o.cycle, o.count, overwrite))
  }

  /** Number of frames in `frames` shown under identifier text `id`. */
  function Occurrences(frames: seq<RawFrame>, id: string): nat
    decreases |frames|
  {
    if |frames| == 0 then 0
    else Occurrences(frames[..|frames| - 1], id) + (if CanId(frames[|frames| - 1]) == id then 1 else 0)
  }

  /** The latest frame in `frames` with identifier text `id`. */
  function LastFrame(frames: seq<RawFrame>, id: string): (f: RawFrame)
    requires Occurrences(frames, id) > 0
    ensures CanId(f) == id
    decreases |frames|
  {
    var f := frames[|frames| - 1];
    if CanId(f) == id then f else LastFrame(frames[..|frames| - 1], id)
  }

  /** The frame with identifier text `id` seen just before `LastFrame(frames, id)`. */
  function PrevFrame(frames: seq<RawFrame>, id: string): (f: RawFrame)
    requires Occurrences(frames, id) > 1
    ensures CanId(f) == id
    decreases |frames|
  {
    var n := |frames| - 1;
    if CanId(frames[n]) == id then LastFrame(frames[..n], id) else PrevFrame(frames[..n], id)
  }

  /** The identifier texts of all frames in `frames`. */
  function SeenIds(frames: seq<RawFrame>): (ids: set<string>)
    ensures forall id :: id in ids <==> Occurrences(frames, id) > 0
    decreases |frames|
  {
    if |frames| == 0 then {}
    else SeenIds(frames[..|frames| - 1]) + {CanId(frames[|frames| - 1])}
  }

  /**
   * Adding one frame to a history: its identifier gains one sighting, it becomes
   * that identifier's latest frame and the former latest one becomes the previous
   * one; nothing changes for any other identifier.
   */
  lemma HistorySnoc(frames: seq<RawFrame>, f: RawFrame)
    ensures var fs := frames + [f];
      && Occurrences(fs, CanId(f)) == Occurrences(frames, CanId(f)) + 1
      && LastFrame(fs, CanId(f)) == f
      && SeenIds(fs) == SeenIds(frames) + {CanId(f)}
      && (forall k :: k != CanId(f) ==> Occurrences(fs, k) == Occurrences(frames, k))
      && (forall k :: k != CanId(f) && Occurrences(frames, k) > 0 ==> LastFrame(fs, k) == LastFrame(frames, k))
      && (Occurrences(frames, CanId(f)) > 0 ==> PrevFrame(fs, CanId(f)) == LastFrame(frames, CanId(f)))
      && (forall k :: k != CanId(f) && Occurrences(frames, k) > 1 ==> PrevFrame(fs, k) == PrevFrame(frames, k))
  {
    var fs := frames + [f];
    assert fs[..|frames|] == frames && fs[|fs| - 1] == f;
  }

  /** The tables after the receive loop has processed `frames` in order, starting empty. */
  function ObserveAll(frames: seq<RawFrame>): Tracker
    decreases |frames|
  {
    if |frames| == 0 then EmptyTracker
    else
      var f := frames[|frames| - 1];
      Observe(ObserveAll(frames[..|frames| - 1]), CanId(f), f.timestamp).tracker
  }

  /**
   * After any sequence of frames, `counts[id]` is the number of frames seen for
   * `id`, the stored time is that of the latest of them, and an identifier never
   * seen has no entry in either table.
   */
  lemma {:induction false} TrackerAt(frames: seq<RawFrame>, id: string)
    ensures var t := ObserveAll(frames);
      && KeysAgree(t)
      && (id in t.counts <==> Occurrences(frames, id) > 0)
      && (id in t.counts ==> t.counts[id] == Occurrences(frames, id) && t.lastTimestamps[id] == LastFrame(frames, id).timestamp)
    decreases |frames|
  {
    if |frames| > 0 {
      var n := |frames| - 1;
      TrackerAt(frames[..n], id);
      TrackerAt(frames[..n], CanId(frames[n]));
    }
  }

  lemma TrackerReflectsHistory(frames: seq<RawFrame>)
    ensures KeysAgree(ObserveAll(frames))
    ensures forall id :: id in ObserveAll(frames).counts <==> Occurrences(frames, id) > 0
    ensures forall id :: id in ObserveAll(frames).counts ==>
      ObserveAll(frames).counts[id] == Occurrences(frames, id) &&
      ObserveAll(frames).lastTimestamps[id] == LastFrame(frames, id).timestamp
  {
    TrackerAt(frames, "");
    forall id
      ensures id in ObserveAll(frames).counts <==> Occurrences(frames, id) > 0
      ensures id in ObserveAll(frames).counts ==>
        ObserveAll(frames).counts[id] == Occurrences(frames, id) &&
        ObserveAll(frames).lastTimestamps[id] == LastFrame(frames, id).timestamp
    {
      TrackerAt(frames, id);
    }
  }

  /**
   * The sighting of a frame that follows `frames`: a first sighting has no cycle
   * time, a later one the delta to the previous frame with the same identifier;
   * its count is the number of frames seen for that identifier, this one included.
   */
  lemma ObserveAfterHistory(frames: seq<RawFrame>, f: RawFrame)
    ensures var o := Observe(ObserveAll(frames), CanId(f), f.timestamp);
      && o.tracker == ObserveAll(frames + [f])
      && o.count == Occurrences(frames + [f], CanId(f))
      && (Occurrences(frames, CanId(f)) == 0 ==> o.cycle == NoCycle)
      && (Occurrences(frames, CanId(f)) > 0 ==>
            o.cycle == CycleMs((f.timestamp - LastFrame(frames, CanId(f)).timestamp) * 1000.0))
  {
    var fs := frames + [f];
    var id := CanId(f);
    assert fs[..|frames|] == frames && fs[|fs| - 1] == f;
    assert ObserveAll(fs) == Observe(ObserveAll(frames), id, f.timestamp).tracker;
    assert Occurrences(fs, id) == Occurrences(frames, id) + 1;
    TrackerAt(frames, id);
  }

  /**
   * The cycle time of a frame that follows `frames`, stated over the history that
   * includes it: blank on its identifier's first frame, otherwise the delta to the
   * frame before it with the same identifier.
   */
  lemma CycleAfterHistory(frames: seq<RawFrame>, f: RawFrame)
    ensures var fs := frames + [f];
      Observe(ObserveAll(frames), CanId(f), f.timestamp).cycle ==
        if Occurrences(fs, CanId(f)) == 1 then NoCycle
        else CycleMs((f.timestamp - PrevFrame(fs, CanId(f)).timestamp) * 1000.0)
  {
    ObserveAfterHistory(frames, f);
    OwnSnoc(frames, f);
  }

  /** Adding one frame: its identifier gains one sighting and, if seen before, its former latest frame becomes the previous one. */
  lemma OwnSnoc(frames: seq<RawFrame>, f: RawFrame)
    ensures var fs := frames + [f];
      && Occurrences(fs, CanId(f)) == Occurrences(frames, CanId(f)) + 1
      && LastFrame(fs, CanId(f)) == f
      && (Occurrences(frames, CanId(f)) > 0 ==> PrevFrame(fs, CanId(f)) == LastFrame(frames, CanId(f)))
  {
    var fs := frames + [f];
    assert fs[..|frames|] == frames && fs[|fs| - 1] == f;
  }

  /**
   * The record of a frame that follows `frames`, stated over the history that
   * includes it: the tables become those of the longer history, and the count and
   * cycle time are the frame's sighting count and the delta to the frame before.
   */
  lemma RecordAfterHistory(frames: seq<RawFrame>, f: RawFrame, stamp: string, overwrite: bool)
    ensures var fs := frames + [f];
      var r := ReceiveRecord(ObserveAll(frames), f, stamp, overwrite);
      && r.tracker == ObserveAll(fs)
      && r.record.canId == CanId(f)
      && Occurrences(fs, CanId(f)) > 0 && LastFrame(fs, CanId(f)) == f
      && r.record.count == Occurrences(fs, CanId(f))
      && r.record.cycleTime ==
           if Occurrences(fs, CanId(f)) == 1 then NoCycle
           else CycleMs((f.timestamp - PrevFrame(fs, CanId(f)).timestamp) * 1000.0)
  {
    ObserveAfterHistory(frames, f);
    CycleAfterHistory(frames, f);
    OwnSnoc(frames, f);
  }

  /** Two frames for 0x100 at 1.000 s and 1.250 s: the second shows 250 ms and count 2. */
  lemma SecondSightingExample()
    ensures var f1 := RawFrame(0x100, [], false, 0, 1.0);
      var f2 := RawFrame(0x100, [], false, 0, 1.25);
      var r := ReceiveRecord(ObserveAll([f1]), f2, "", true);
      r.record.cycleTime == CycleMs(250.0) && r.record.count == 2
  {
    var f1 := RawFrame(0x100, [], false, 0, 1.0);
    var f2 := RawFrame(0x100, [], false, 0, 1.25);
    ObserveAfterHistory([f1], f2);
    assert [f1] + [f2] == [f1, f2];
    assert [f1, f2][..1] == [f1];
  }

  /** Identifier 0x7FF with payload DE AD is shown as "0x7ff" and "DE AD". */
  lemma RenderingExample()
    ensures var r := ReceiveRecord(EmptyTracker, RawFrame(0x7FF, [0xDE, 0xAD], false, 2, 0.0), "", true);
      r.record.canId == "0x7ff" && r.record.data == "DE AD" && r.record.msgType == "STD"
  {
    assert HexDigits(0x7) == "7";
    assert HexDigits(0x7F) == "7f";
    assert PyHex(0x7FF) == "0x7ff";
    assert ByteHex(0xDE) == "DE" && ByteHex(0xAD) == "AD";
    assert RenderPayload([0xDE, 0xAD]) == "DE AD" by {
      assert [0xDE, 0xAD][1..] == [0xAD];
    }
  }
}

=== FILE: hex.dfy ===
/**
 * Hexadecimal text as the receive loop produces it: Python's `hex(n)` for the
 * CAN identifier, `f"{b:02X}"` for each payload byte and `' '.join(...)` for the
 * payload; and `int(text, 16)` for reading hexadecimal back.
 */
module Hex {
  import opened Wrappers

  type byte = b: int | 0 <= b < 256

  predicate IsHexChar(c: char) {
    ('0' <= c <= '9') || ('a' <= c <= 'f') || ('A' <= c <= 'F')
  }

  predicate IsLowerHexChar(c: char) {
    ('0' <= c <= '9') || ('a' <= c <= 'f')
  }

  predicate IsUpperHexChar(c: char) {
    ('0' <= c <= '9') || ('A' <= c <= 'F')
  }

  predicate AllHex(s: string) {
    forall i :: 0 <= i < |s| ==> IsHexChar(s[i])
  }

  /** Digits as `hex()` writes them: lower case, at least one, no leading zero unless the value is 0. */
  predicate Canonical(s: string) {
    && |s| > 0
    && (forall i :: 0 <= i < |s| ==> IsLowerHexChar(s[i]))
    && (|s| > 1 ==> s[0] != '0')
  }

  function HexCharValue(c: char): (d: nat)
    requires IsHexChar(c)
    ensures d < 16
  {
    if '0' <= c <= '9' then (c as int) - ('0' as int)
    else if 'a' <= c <= 'f' then (c as int) - ('a' as int) + 10
    else (c as int) - ('A' as int) + 10
  }

  function LowerHexChar(d: nat): (c: char)
    requires d < 16
    ensures IsLowerHexChar(c) && HexCharValue(c) == d
  {
    "0123456789abcdef"[d]
  }

  function UpperHexChar(d: nat): (c: char)
    requires d < 16
    ensures IsUpperHexChar(c) && HexCharValue(c) == d
  {
    "0123456789ABCDEF"[d]
  }

  lemma LowerHexCharOfValue(c: char)
    requires IsLowerHexChar(c)
    ensures LowerHexChar(HexCharValue(c)) == c
  {
  }

  /** Value of a string of hexadecimal digits of either case, most significant first. */
  function HexValue(s: string): nat
    requires AllHex(s)
    decreases |s|
  {
    if |s| == 0 then 0 else 16 * HexValue(s[..|s| - 1]) + HexCharValue(s[|s| - 1])
  }

  /** `int(s, 16)` restricted to plain hexadecimal digits; None stands for the ValueError. */
  function ParseHex(s: string): (r: Option<nat>)
    ensures r.Some? <==> |s| > 0 && AllHex(s)
  {
    if |s| > 0 && AllHex(s) then Some(HexValue(s)) else None
  }

  /** The digits of `hex(n)` after the `0x` prefix. */
  function HexDigits(n: nat): (s: string)
    ensures Canonical(s)
    ensures s == "0" <==> n == 0
    decreases n
  {
    if n < 16 then [LowerHexChar(n)] else HexDigits(n / 16) + [LowerHexChar(n % 16)]
  }

  /** Python's `hex(n)` for a non-negative integer: `0x`, then canonical digits that read back as `n`. */
  function PyHex(n: nat): (s: string)
    ensures |s| >= 3 && s[..2] == "0x"
    ensures Canonical(s[2..])
    ensures ParseHex(s[2..]) == Some(n)
  {
    var digits := HexDigits(n);
    HexRoundTrip(n);
    assert ("0x" + digits)[2..] == digits;
    "0x" + digits
  }

  lemma {:induction false} HexRoundTrip(n: nat)
    ensures HexValue(HexDigits(n)) == n
    decreases n
  {
    if n >= 16 {
      var s := HexDigits(n);
      assert s[..|s| - 1] == HexDigits(n / 16);
      HexRoundTrip(n / 16);
    }
  }

  lemma {:induction false} HexValuePositive(s: string)
    requires |s| > 0 && AllHex(s) && HexCharValue(s[0]) > 0
    ensures HexValue(s) > 0
    decreases |s|
  {
    if |s| > 1 {
      var init := s[..|s| - 1];
      assert init[0] == s[0];
      HexValuePositive(init);
    }
  }

  /** Appending a digit `d` to the digits of a positive `a` gives the digits of `16 * a + d`. */
  lemma HexDigitsSnoc(a: nat, d: nat)
    requires a > 0 && d < 16
    ensures HexDigits(16 * a + d) == HexDigits(a) + [LowerHexChar(d)]
  {
    var n := 16 * a + d;
    assert n / 16 == a && n % 16 == d;
  }

  /** Appending a digit multiplies the value by 16 and adds the digit. */
  lemma HexValueSnoc(init: string, c: char)
    requires AllHex(init) && IsHexChar(c)
    ensures AllHex(init + [c]) && HexValue(init + [c]) == 16 * HexValue(init) + HexCharValue(c)
  {
    var s := init + [c];
    assert s[..|s| - 1] == init;
  }

  lemma CanonicalSnoc(init: string, last: char)
    requires AllHex(init) && IsLowerHexChar(last)
    requires HexValue(init) > 0 && HexDigits(HexValue(init)) == init
    ensures AllHex(init + [last]) && HexDigits(HexValue(init + [last])) == init + [last]
  {
    var a, d := HexValue(init), HexCharValue(last);
    HexValueSnoc(init, last);
    HexDigitsSnoc(a, d);
    LowerHexCharOfValue(last);
  }

  /** The other direction: every canonical digit string is the `hex()` text of its own value. */
  lemma {:induction false} CanonicalRoundTrip(s: string)
    requires Canonical(s)
    ensures AllHex(s) && HexDigits(HexValue(s)) == s
    decreases |s|
  {
    var last := s[|s| - 1];
    if |s| == 1 {
      assert s[..0] == [];
      assert HexValue(s) == HexCharValue(last);
      LowerHexCharOfValue(last);
      assert s == [last];
    } else {
      var init := s[..|s| - 1];
      assert Canonical(init) by {
        assert init[0] == s[0];
        forall i | 0 <= i < |init|
          ensures IsLowerHexChar(init[i])
        {
          assert init[i] == s[i];
        }
      }
      CanonicalRoundTrip(init);
      HexValuePositive(init);
      assert s == init + [last];
      CanonicalSnoc(init, last);
    }
  }

  /** Distinct identifiers get distinct `hex()` texts, so keying by the text is keying by the identifier. */
  lemma PyHexInjective(m: nat, n: nat)
    ensures PyHex(m) == PyHex(n) <==> m == n
  {
    if PyHex(m) == PyHex(n) {
      assert ParseHex(PyHex(m)[2..]) == Some(m);
    }
  }

  /** The byte written by a two-digit hexadecimal pair. */
  function PairValue(s: string): byte
    requires |s| == 2 && AllHex(s)
  {
    16 * HexCharValue(s[0]) + HexCharValue(s[1])
  }

  /** `f"{b:02X}"`: two upper-case digits that read back as the byte. */
  function ByteHex(b: byte): (s: string)
    ensures |s| == 2 && IsUpperHexChar(s[0]) && IsUpperHexChar(s[1])
    ensures AllHex(s) && PairValue(s) == b
  {
    [UpperHexChar(b / 16), UpperHexChar(b % 16)]
  }

  /** `' '.join(f"{b:02X}" for b in data)`. */
  function RenderPayload(data: seq<byte>): (s: string)
    ensures |data| == 0 <==> s == ""
    ensures |data| > 0 ==> |s| == 3 * |data| - 1
    decreases |data|
  {
    if |data| == 0 then ""
    else if |data| == 1 then ByteHex(data[0])
    else ByteHex(data[0]) + " " + RenderPayload(data[1..])
  }

  lemma SliceAfter(a: string, b: string, k: nat)
    requires k + 2 <= |b|
    ensures (a + b)[|a| + k..|a| + k + 2] == b[k..k + 2]
  {
    assert (a + b)[|a| + k] == b[k] && (a + b)[|a| + k + 1] == b[k + 1];
  }

  /** A payload of two or more bytes is the first pair, a space, and the rest. */
  lemma RenderPayloadCons(data: seq<byte>)
    requires |data| > 1
    ensures RenderPayload(data) == (ByteHex(data[0]) + " ") + RenderPayload(data[1..])
  {
  }

  /** Byte `i` of the payload is the pair at offset `3 * i`. */
  lemma {:induction false} RenderPayloadPair(data: seq<byte>, i: nat)
    requires i < |data|
    ensures 3 * i + 2 <= |RenderPayload(data)|
    ensures RenderPayload(data)[3 * i..3 * i + 2] == ByteHex(data[i])
    decreases i
  {
    if |data| == 1 {
      assert RenderPayload(data)[0..2] == ByteHex(data[0]);
    } else {
      var head := ByteHex(data[0]) + " ";
      var rest := RenderPayload(data[1..]);
      RenderPayloadCons(data);
      if i == 0 {
        assert (head + rest)[0..2] == head[0..2] == ByteHex(data[0]);
      } else {
        var k := 3 * (i - 1);
        RenderPayloadPair(data[1..], i - 1);
        assert data[1..][i - 1] == data[i];
        SliceAfter(head, rest, k);
        assert rest[k..k + 2] == ByteHex(data[i]);
      }
    }
  }

  /** Pairs are separated by single spaces: the character after every pair but the last is a space. */
  lemma {:induction false} RenderPayloadSpace(data: seq<byte>, i: nat)
    requires i < |data| - 1
    ensures RenderPayload(data)[3 * i + 2] == ' '
    decreases i
  {
    var head := ByteHex(data[0]) + " ";
    var rest := RenderPayload(data[1..]);
    RenderPayloadCons(data);
    if i > 0 {
      RenderPayloadSpace(data[1..], i - 1);
      assert (head + rest)[3 + 3 * (i - 1) + 2] == rest[3 * (i - 1) + 2];
    }
  }

  /** Reads a rendered payload back into bytes; None when the text is not in that shape. */
  function DecodePayload(s: string): (r: Option<seq<byte>>)
    decreases |s|
  {
    if |s| == 0 then Some([])
    else if |s| == 2 && AllHex(s) then Some([PairValue(s)])
    else if |s| > 3 && AllHex(s[..2]) && s[2] == ' ' then
      match DecodePayload(s[3..])
      case None => None
      case Some(rest) => Some([PairValue(s[..2])] + rest)
    else None
  }

  /** The payload text loses nothing: decoding it gives back exactly the frame's bytes. */
  lemma {:induction false} PayloadRoundTrip(data: seq<byte>)
    ensures DecodePayload(RenderPayload(data)) == Some(data)
    decreases |data|
  {
    var s := RenderPayload(data);
    if |data| == 1 {
      assert s == ByteHex(data[0]);
      assert DecodePayload(s) == Some([PairValue(s)]);
      assert data == [data[0]];
    } else if |data| > 1 {
      assert s == ByteHex(data[0]) + " " + RenderPayload(data[1..]);
      assert s[..2] == ByteHex(data[0]);
      assert s[2] == ' ';
      assert s[3..] == RenderPayload(data[1..]);
      PayloadRoundTrip(data[1..]);
      assert data == [data[0]] + data[1..];
    }
  }

  /** Two frames show the same payload text exactly when they carry the same bytes. */
  lemma PayloadInjective(a: seq<byte>, b: seq<byte>)
    ensures RenderPayload(a) == RenderPayload(b) <==> a == b
  {
    PayloadRoundTrip(a);
    PayloadRoundTrip(b);
  }
}

=== FILE: hexid.dfy ===
/**
 * `HexIDItem`, the table cell for CAN identifiers that sorts numerically: its
 * constructor's prefix normalisation and its `<` operator.
 */
module HexId {
  import opened Wrappers
  import opened Text
  import opened Hex

  predicate StartsWith(s: string, prefix: string) {
    |prefix| <= |s| && s[..|prefix|] == prefix
  }

  /** The constructor: a leading "0X" becomes "0x"; any other text is stored as given. */
  function Normalize(s: string): (r: string)
    ensures |r| == |s|
    ensures !StartsWith(r, "0X")
    ensures StartsWith(s, "0X") ==> r[..2] == "0x" && r[2..] == s[2..]
    ensures !StartsWith(s, "0X") ==> r == s
  {
    if StartsWith(s, "0X") then "0x" + s[2..] else s
  }

  /** Normalising twice is normalising once. */
  lemma NormalizeIdempotent(s: string)
    ensures Normalize(Normalize(s)) == Normalize(s)
  {
  }

  /** The text `__lt__` hands to `int(..., 16)`: every "0x", then every "0X", removed. */
  function StripPrefixes(s: string): (r: string)
    ensures |r| <= |s|
  {
    RemoveAll(RemoveAll(s, "0x"), "0X")
  }

  /** Digits with an optional "0x" or "0X" in front, as `int(..., 16)` accepts them after any sign. */
  function UnsignedHex(u: string): (r: Option<nat>)
    ensures AllHex(u) ==> r == ParseHex(u)
    ensures StartsWith(u, "0x") || StartsWith(u, "0X") ==> r == ParseHex(u[2..])
  {
    if StartsWith(u, "0x") || StartsWith(u, "0X") then
      assert AllHex(u) ==> IsHexChar(u[1]);
      ParseHex(u[2..])
    else ParseHex(u)
  }

  /**
   * `int(s, 16)`: an optional sign, an optional base prefix, then hexadecimal
   * digits; None stands for the ValueError.
   */
  function PyIntHex(s: string): (r: Option<int>)
    ensures AllHex(s) ==> r == (if |s| > 0 then Some(HexValue(s) as int) else None)
    ensures r.Some? && r.value < 0 ==> s[0] == '-'
  {
    if |s| > 0 && s[0] == '-' then
      match UnsignedHex(s[1..])
      case Some(v) => Some(0 - v)
      case None => None
    else
      var u := if |s| > 0 && s[0] == '+' then s[1..] else s;
      match UnsignedHex(u)
      case Some(v) => Some(v as int)
      case None => None
  }

  /** A text with a leading minus reads as the negated value of the rest. */
  lemma PyIntHexNegative(s: string)
    requires |s| > 1 && s[0] == '-' && AllHex(s[1..])
    ensures PyIntHex(s) == Some(0 - HexValue(s[1..]))
  {
    assert UnsignedHex(s[1..]) == Some(HexValue(s[1..]));
  }

  /**
   * `__lt__`: when both texts read as hexadecimal once the prefixes are removed,
   * compare the numbers; if either does not, compare the texts as strings.
   */
  predicate HexLess(a: string, b: string) {
    match (PyIntHex(StripPrefixes(a)), PyIntHex(StripPrefixes(b)))
    case (Some(x), Some(y)) => x < y
    case _ => LexLess(a, b)
  }

  /** The text of an identifier as the receive loop writes it loses its prefix and reads back as the identifier. */
  lemma StripPyHex(n: nat)
    ensures PyIntHex(StripPrefixes(PyHex(n))) == Some(n)
  {
    var s := PyHex(n);
    var digits := s[2..];
    assert s == "0x" + digits;
    assert s[..2] == "0x" && s[2..] == digits;
    RemoveAllAbsent(digits, "0x");
    RemoveAllAbsent(digits, "0X");
    assert IsLowerHexChar(digits[0]);
  }

  /** Identifier cells sort by identifier value: "0x9" sorts before "0x10". */
  lemma HexLessOrdersIdentifiers(m: nat, n: nat)
    ensures HexLess(PyHex(m), PyHex(n)) <==> m < n
  {
    StripPyHex(m);
    StripPyHex(n);
  }

  lemma NumericExample()
    ensures HexLess("0x9", "0x10") && !HexLess("0x10", "0x9")
  {
    assert PyHex(9) == "0x9" && PyHex(16) == "0x10";
    HexLessOrdersIdentifiers(9, 16);
    HexLessOrdersIdentifiers(16, 9);
  }

  /** A text that is not hexadecimal falls back to string order: "0x" (no digits) sorts before "0x1". */
  lemma FallbackExample()
    ensures HexLess("0x", "0x1") && !HexLess("0x1", "0x")
  {
    assert StripPrefixes("0x") == "";
  }

  /** No text sorts before itself, in either branch. */
  lemma HexLessIrreflexive(a: string)
    ensures !HexLess(a, a)
  {
    LexLessIrreflexive(a);
  }

  /** Both branches are asymmetric: two texts never sort before each other. */
  lemma HexLessAsymmetric(a: string, b: string)
    requires HexLess(a, b)
    ensures !HexLess(b, a)
  {
    if !(PyIntHex(StripPrefixes(a)).Some? && PyIntHex(StripPrefixes(b)).Some?) {
      LexLessAsymmetric(a, b);
    }
  }

  /**
   * Mixing hexadecimal and non-hexadecimal texts breaks transitivity: "0x9" < "0x10"
   * numerically, "0x10" < "0x1z" and "0x1z" < "0x9" as strings, a cycle.
   */
  lemma HexLessCycle()
    ensures HexLess("0x9", "0x10") && HexLess("0x10", "0x1z") && HexLess("0x1z", "0x9")
  {
    NumericExample();
    NonHexText();
    CycleStringSteps();
  }

  /** "0x1z" does not read as hexadecimal once its prefix is removed. */
  lemma NonHexText()
    ensures PyIntHex(StripPrefixes("0x1z")).None?
  {
    assert RemoveAll("1z", "0x") == "1z" && RemoveAll("1z", "0X") == "1z" by {
      assert "1z"[..2] != "0x" && "1z"[..2] != "0X" && "1z"[1..] == "z";
    }
    assert RemoveAll("0x1z", "0x") == "1z" by {
      assert "0x1z"[..2] == "0x" && "0x1z"[2..] == "1z";
    }
    assert StripPrefixes("0x1z") == "1z";
    assert !IsHexChar("1z"[1]) && "1z"[0] == '1' && !StartsWith("1z", "0x") && !StartsWith("1z", "0X");
  }

  /**
   * A sign is read too: "-2" sorts before "-1" by value, although as strings
   * "-1" comes first.
   */
  lemma SignedExample()
    ensures HexLess("-2", "-1") && !HexLess("-1", "-2")
    ensures LexLess("-1", "-2")
  {
    RemoveAllAbsent("-2", "0x");
    RemoveAllAbsent("-2", "0X");
    RemoveAllAbsent("-1", "0x");
    RemoveAllAbsent("-1", "0X");
    assert "-1"[1..] == "1" && "-2"[1..] == "2";
    PyIntHexNegative("-2");
    PyIntHexNegative("-1");
  }

  /** As strings, "0x10" sorts before "0x1z" and "0x1z" before "0x9". */
  lemma CycleStringSteps()
    ensures LexLess("0x10", "0x1z") && LexLess("0x1z", "0x9")
  {
    assert LexLess("0x10", "0x1z") by {
      assert "0x10"[1..] == "x10" && "0x1z"[1..] == "x1z";
      assert "x10"[1..] == "10" && "x1z"[1..] == "1z";
      assert "10"[1..] == "0" && "1z"[1..] == "z";
    }
    assert LexLess("0x1z", "0x9") by {
      assert "0x1z"[1..] == "x1z" && "0x9"[1..] == "x9";
      assert "x1z"[1..] == "1z" && "x9"[1..] == "9";
    }
  }

  /**
   * The comparison as evidently intended for sorting: texts that read as
   * hexadecimal compare by value and come before all others, which compare as
   * strings. It agrees with `HexLess` whenever both texts read as hexadecimal or
   * neither does.
   */
  predicate HexLessConsistent(a: string, b: string) {
    match (PyIntHex(StripPrefixes(a)), PyIntHex(StripPrefixes(b)))
    case (Some(x), Some(y)) => x < y
    case (Some(_), None) => true
    case (None, Some(_)) => false
    case (None, None) => LexLess(a, b)
  }

  lemma HexLessConsistentAgrees(a: string, b: string)
    requires PyIntHex(StripPrefixes(a)).Some? == PyIntHex(StripPrefixes(b)).Some?
    ensures HexLessConsistent(a, b) == HexLess(a, b)
  {
  }

  lemma HexLessConsistentIrreflexive(a: string)
    ensures !HexLessConsistent(a, a)
  {
    LexLessIrreflexive(a);
  }

  /** The corrected comparison is transitive, so it is a strict order a sort can rely on. */
  lemma HexLessConsistentTransitive(a: string, b: string, c: string)
    requires HexLessConsistent(a, b) && HexLessConsistent(b, c)
    ensures HexLessConsistent(a, c)
  {
    if PyIntHex(StripPrefixes(a)).None? && PyIntHex(StripPrefixes(b)).None? && PyIntHex(StripPrefixes(c)).None? {
      LexLessTransitive(a, b, c);
    }
  }
}

=== FILE: receiver.dfy ===
/** `CANReceiver`: a two-state receiver whose message read is gated by its state. */
module Receiver {
  import opened Wrappers

  datatype CanReceiver = CanReceiver(isReceiving: bool)

  /** What `receive_message` returns while receiving, standing in for a real frame. */
  const SampleMessage := "Sample CAN message"

  /** A new receiver is not receiving. */
  function New(): (r: CanReceiver)
    ensures !r.isReceiving
  {
    CanReceiver(false)
  }

  /** `start_receiving`: afterwards the receiver is receiving; starting it again changes nothing. */
  function StartReceiving(r: CanReceiver): (r': CanReceiver)
    ensures r'.isReceiving
    ensures r.isReceiving ==> r' == r
  {
    if !r.isReceiving then CanReceiver(true) else r
  }

  /** `stop_receiving`: afterwards the receiver is stopped; stopping it again changes nothing. */
  function StopReceiving(r: CanReceiver): (r': CanReceiver)
    ensures !r'.isReceiving
    ensures !r.isReceiving ==> r' == r
  {
    if r.isReceiving then CanReceiver(false) else r
  }

  /** `receive_message`: the sample message exactly while receiving, None otherwise. */
  function ReceiveMessage(r: CanReceiver): (m: Option<string>)
    ensures m.Some? <==> r.isReceiving
    ensures m.Some? ==> m.value == SampleMessage
  {
    if r.isReceiving then Some(SampleMessage) else None
  }

  /** Start and stop are idempotent, and each decides what the next read returns. */
  lemma StartStopIdempotent(r: CanReceiver)
    ensures StartReceiving(StartReceiving(r)) == StartReceiving(r)
    ensures StopReceiving(StopReceiving(r)) == StopReceiving(r)
    ensures ReceiveMessage(StartReceiving(r)) == Some(SampleMessage)
    ensures ReceiveMessage(StopReceiving(r)) == None
    ensures ReceiveMessage(New()) == None
  {
  }
}

=== FILE: table.dfy ===
/**
 * The message table of the configuration window: its rows in display order and
 * `msgs`, the identifier → row index map used in Overwrite mode. Covers placing a
 * record (`handle_message`, `set_row`, `update_row`) and the deduplication pass run
 * when the Overwrite box is checked (`handle_overwrite_change`).
 */
module Table {
  import opened Frames

  /** One table row: the `#` cell and the cells written from a record. */
  datatype Row = Row(
    number: nat,
    timestamp: string,
    canId: string,
    msgType: string,
    length: nat,
    data: string,
    cycleTime: Cycle,
    count: nat)

  /** The rows in display order, and `msgs`. */
  datatype View = View(rows: seq<Row>, msgs: map<string, nat>)

  const EmptyView := View([], map[])

  /** The identifiers shown in `rows`. */
  function IdSet(rows: seq<Row>): set<string> {
    set i | 0 <= i < |rows| :: rows[i].canId
  }

  predicate DistinctIds(rows: seq<Row>) {
    forall i, j :: 0 <= i < j < |rows| ==> rows[i].canId != rows[j].canId
  }

  /** Every entry of `msgs` names an existing row that holds that identifier. */
  predicate MsgsValid(v: View) {
    forall id :: id in v.msgs ==> v.msgs[id] < |v.rows| && v.rows[v.msgs[id]].canId == id
  }

  /** The Overwrite-mode shape: one row per identifier, and `msgs` indexes every one of them. */
  predicate OneRowPerId(v: View) {
    DistinctIds(v.rows) && MsgsValid(v) && v.msgs.Keys == IdSet(v.rows)
  }

  /** Row `i` holds the last occurrence of its identifier. */
  predicate IsLastOf(rows: seq<Row>, i: nat)
    requires i < |rows|
  {
    forall j :: i < j < |rows| ==> rows[j].canId != rows[i].canId
  }

  /** The `#` cells read 1..N in row order. */
  predicate ContiguousNumbers(rows: seq<Row>) {
    forall i :: 0 <= i < |rows| ==> rows[i].number == i + 1
  }

  /** The cells other than `#` and CAN ID show the record's fields. */
  predicate Shows(r: Row, rec: FrameRecord) {
    && r.timestamp == rec.timestamp
    && r.msgType == rec.msgType
    && r.length == rec.length
    && r.data == rec.data
    && r.cycleTime == rec.cycleTime
    && r.count == rec.count
  }

  /** `set_row`: every cell of a new row at index `row`; its `#` cell is `row + 1`. */
  function SetRow(row: nat, rec: FrameRecord): (r: Row)
    ensures Shows(r, rec) && r.canId == rec.canId && r.number == row + 1
  {
    Row(row + 1, rec.timestamp, rec.canId, rec.msgType, rec.length, rec.data, rec.cycleTime, rec.count)
  }

  /** `update_row`: rewrites columns 1 and 3 to 7; the `#` and CAN ID cells keep their contents. */
  function UpdateRow(prior: Row, rec: FrameRecord): (r: Row)
    ensures Shows(r, rec) && r.number == prior.number && r.canId == prior.canId
  {
    prior.(timestamp := rec.timestamp, msgType := rec.msgType, length := rec.length,
         data := rec.data, cycleTime := rec.cycleTime, count := rec.count)
  }

  /**
   * `handle_message`. In Overwrite mode a known identifier has its row rewritten
   * in place; otherwise a row is appended at index `rowCount`, and in Overwrite
   * mode `msgs` learns its index. A write to a row past the end of the table
   * changes nothing.
   */
  function HandleMessage(v: View, rec: FrameRecord): (v': View)
    ensures rec.overwrite && rec.canId in v.msgs && v.msgs[rec.canId] < |v.rows| ==>
      var k := v.msgs[rec.canId];
      && |v'.rows| == |v.rows|
      && v'.msgs == v.msgs
      && Shows(v'.rows[k], rec)
      && v'.rows[k].number == v.rows[k].number
      && v'.rows[k].canId == v.rows[k].canId
      && (forall i :: 0 <= i < |v.rows| && i != k ==> v'.rows[i] == v.rows[i])
    ensures !rec.overwrite || rec.canId !in v.msgs ==>
      && |v'.rows| == |v.rows| + 1
      && v'.rows[..|v.rows|] == v.rows
      && Shows(v'.rows[|v.rows|], rec)
      && v'.rows[|v.rows|].canId == rec.canId
      && v'.rows[|v.rows|].number == |v.rows| + 1
      && v'.msgs == (if rec.overwrite then v.msgs[rec.canId := |v.rows|] else v.msgs)
  {
    if rec.overwrite && rec.canId in v.msgs then
      var row := v.msgs[rec.canId];
      if row < |v.rows| then
        View(v.rows[row := UpdateRow(v.rows[row], rec)], v.msgs)
      else v
    else
      var row := |v.rows|;
      View(v.rows + [SetRow(row, rec)], if rec.overwrite then v.msgs[rec.canId := row] else v.msgs)
  }

  /** `handle_message` keeps `msgs` pointing at rows that hold its identifiers. */
  lemma HandleMessageKeepsMsgsValid(v: View, rec: FrameRecord)
    requires MsgsValid(v)
    ensures MsgsValid(HandleMessage(v, rec))
  {
  }

  /** Rewriting a row in place keeps its identifier, so the table's identifiers stay the same. */
  lemma UpdateKeepsIds(rows: seq<Row>, k: nat, row: Row)
    requires k < |rows| && row.canId == rows[k].canId
    ensures IdSet(rows[k := row]) == IdSet(rows)
    ensures DistinctIds(rows) ==> DistinctIds(rows[k := row])
  {
    var rows' := rows[k := row];
    assert forall i :: 0 <= i < |rows'| ==> rows'[i].canId == rows[i].canId;
  }

  /** Appending a row adds its identifier, and keeps identifiers distinct when it is new. */
  lemma AppendIds(rows: seq<Row>, row: Row)
    ensures IdSet(rows + [row]) == IdSet(rows) + {row.canId}
    ensures DistinctIds(rows) && row.canId !in IdSet(rows) ==> DistinctIds(rows + [row])
  {
    var rows' := rows + [row];
    assert forall i :: 0 <= i < |rows| ==> rows'[i] == rows[i];
    assert rows'[|rows|] == row;
  }

  /**
   * In Overwrite mode `handle_message` keeps one row per identifier, and the
   * table's identifiers grow by exactly the record's.
   */
  lemma HandleMessageKeepsOneRowPerId(v: View, rec: FrameRecord)
    requires rec.overwrite && OneRowPerId(v)
    ensures OneRowPerId(HandleMessage(v, rec))
    ensures IdSet(HandleMessage(v, rec).rows) == IdSet(v.rows) + {rec.canId}
  {
    if rec.canId in v.msgs {
      var k := v.msgs[rec.canId];
      UpdateKeepsIds(v.rows, k, UpdateRow(v.rows[k], rec));
    } else {
      AppendIds(v.rows, SetRow(|v.rows|, rec));
    }
  }

  /**
   * `handle_message` never moves a row and numbers an appended row by its
   * position, so a contiguous `#` column stays contiguous and no `#` cell falls
   * below its row's position + 1.
   */
  lemma HandleMessageKeepsNumbering(v: View, rec: FrameRecord)
    ensures ContiguousNumbers(v.rows) ==> ContiguousNumbers(HandleMessage(v, rec).rows)
    ensures NumbersAtLeastPosition(v.rows) ==> NumbersAtLeastPosition(HandleMessage(v, rec).rows)
  {
  }

  /** Indices below `k` of the rows that survive deduplication, in increasing order. */
  function KeptIndices(rows: seq<Row>, k: nat): (idx: seq<nat>)
    requires k <= |rows|
    ensures forall a :: 0 <= a < |idx| ==> idx[a] < k
    decreases k
  {
    if k == 0 then [] else KeptIndices(rows, k - 1) + (if IsLastOf(rows, k - 1) then [k - 1] else [])
  }

  /** The rows below `k` that survive deduplication, in their original order. */
  function KeptRows(rows: seq<Row>, k: nat): seq<Row>
    requires k <= |rows|
    decreases k
  {
    if k == 0 then [] else KeptRows(rows, k - 1) + (if IsLastOf(rows, k - 1) then [rows[k - 1]] else [])
  }

  /** Every surviving index below `k` is the last occurrence of its identifier. */
  lemma {:induction false} KeptIndicesSound(rows: seq<Row>, k: nat)
    requires k <= |rows|
    ensures forall a :: 0 <= a < |KeptIndices(rows, k)| ==>
      KeptIndices(rows, k)[a] < k && IsLastOf(rows, KeptIndices(rows, k)[a])
    decreases k
  {
    if k > 0 {
      KeptIndicesSound(rows, k - 1);
    }
  }

  /** The surviving indices are listed in increasing order. */
  lemma {:induction false} KeptIndicesIncreasing(rows: seq<Row>, k: nat)
    requires k <= |rows|
    ensures forall a, b :: 0 <= a < b < |KeptIndices(rows, k)| ==> KeptIndices(rows, k)[a] < KeptIndices(rows, k)[b]
    decreases k
  {
    if k > 0 {
      KeptIndicesIncreasing(rows, k - 1);
      KeptIndicesSound(rows, k - 1);
    }
  }

  /** Every last occurrence below `k` survives. */
  lemma {:induction false} KeptIndicesComplete(rows: seq<Row>, k: nat)
    requires k <= |rows|
    ensures forall i :: 0 <= i < k && IsLastOf(rows, i) ==> i in KeptIndices(rows, k)
    decreases k
  {
    if k > 0 {
      KeptIndicesComplete(rows, k - 1);
    }
  }

  /** The surviving rows are the rows at the surviving indices. */
  lemma {:induction false} KeptRowsAtIndices(rows: seq<Row>, k: nat)
    requires k <= |rows|
    ensures |KeptRows(rows, k)| == |KeptIndices(rows, k)|
    ensures forall a :: 0 <= a < |KeptRows(rows, k)| ==> KeptRows(rows, k)[a] == rows[KeptIndices(rows, k)[a]]
    decreases k
  {
    if k > 0 {
      KeptRowsAtIndices(rows, k - 1);
    }
  }

  /**
   * The surviving indices below `k` are exactly the last occurrences, listed in
   * increasing order, and the surviving rows are the rows at those indices.
   */
  lemma KeptFacts(rows: seq<Row>, k: nat)
    requires k <= |rows|
    ensures var idx := KeptIndices(rows, k);
      && (forall a :: 0 <= a < |idx| ==> idx[a] < k && IsLastOf(rows, idx[a]))
      && (forall a, b :: 0 <= a < b < |idx| ==> idx[a] < idx[b])
      && (forall i :: 0 <= i < k && IsLastOf(rows, i) ==> i in idx)
      && |KeptRows(rows, k)| == |idx|
      && (forall a :: 0 <= a < |idx| ==> KeptRows(rows, k)[a] == rows[idx[a]])
  {
    KeptIndicesSound(rows, k);
    KeptIndicesIncreasing(rows, k);
    KeptIndicesComplete(rows, k);
    KeptRowsAtIndices(rows, k);
  }

  /** The table after deduplication: the last row of every identifier, in display order. */
  function KeepLast(rows: seq<Row>): seq<Row> {
    KeptRows(rows, |rows|)
  }

  /** `msgs` as rebuilt by scanning the rows top to bottom: each identifier maps to its last row. */
  function RowIndex(rows: seq<Row>): (m: map<string, nat>)
    ensures m.Keys == IdSet(rows)
    ensures forall id :: id in m ==> m[id] < |rows| && rows[m[id]].canId == id
    decreases |rows|
  {
    if |rows| == 0 then map[]
    else
      var n := |rows| - 1;
      IdSetSnoc(rows);
      RowIndex(rows[..n])[rows[n].canId := n]
  }

  lemma IdSetSnoc(rows: seq<Row>)
    requires |rows| > 0
    ensures IdSet(rows) == IdSet(rows[..|rows| - 1]) + {rows[|rows| - 1].canId}
  {
    var n := |rows| - 1;
    assert forall i :: 0 <= i < n ==> rows[i] == rows[..n][i];
  }

  /** The rebuilt `msgs` points an identifier at its last row. */
  lemma {:induction false} RowIndexLast(rows: seq<Row>, id: string)
    requires id in RowIndex(rows)
    ensures IsLastOf(rows, RowIndex(rows)[id])
    decreases |rows|
  {
    var n := |rows| - 1;
    var init := rows[..n];
    assert RowIndex(rows) == RowIndex(init)[rows[n].canId := n];
    if id != rows[n].canId {
      RowIndexLast(init, id);
      var k := RowIndex(init)[id];
      forall j | k < j < |rows|
        ensures rows[j].canId != id
      {
        if j < n {
          assert rows[j] == init[j];
        }
      }
    }
  }

  /** The rebuilt `msgs` points every identifier at its last row. */
  lemma RowIndexPointsToLast(rows: seq<Row>)
    ensures forall id :: id in RowIndex(rows) ==> IsLastOf(rows, RowIndex(rows)[id])
  {
    forall id | id in RowIndex(rows)
      ensures IsLastOf(rows, RowIndex(rows)[id])
    {
      RowIndexLast(rows, id);
    }
  }

  /** Every row has a last row with the same identifier at or below it. */
  lemma {:induction false} LastOccurrence(rows: seq<Row>, i: nat) returns (j: nat)
    requires i < |rows|
    ensures i <= j < |rows| && rows[j].canId == rows[i].canId && IsLastOf(rows, j)
    decreases |rows| - i
  {
    if IsLastOf(rows, i) {
      j := i;
    } else {
      var k :| i < k < |rows| && rows[k].canId == rows[i].canId;
      j := LastOccurrence(rows, k);
    }
  }

  lemma {:induction false} DistinctIdsCount(rows: seq<Row>)
    requires DistinctIds(rows)
    ensures |IdSet(rows)| == |rows|
    decreases |rows|
  {
    if |rows| > 0 {
      var n := |rows| - 1;
      var init := rows[..n];
      IdSetSnoc(rows);
      assert rows[n].canId !in IdSet(init);
      DistinctIdsCount(init);
    }
  }

  /**
   * Deduplication keeps exactly the last row of every identifier: no identifier
   * is lost, none occurs twice, so the table ends with one row per identifier.
   * (Which rows survive and their order is stated by `KeptFacts`.)
   */
  lemma DedupKeepsLastRows(rows: seq<Row>)
    ensures DistinctIds(KeepLast(rows))
    ensures IdSet(KeepLast(rows)) == IdSet(rows)
    ensures |KeepLast(rows)| == |IdSet(rows)|
    ensures forall i :: 0 <= i < |rows| && IsLastOf(rows, i) ==> rows[i] in KeepLast(rows)
  {
    KeepLastDistinct(rows);
    KeepLastIds(rows);
    DistinctIdsCount(KeepLast(rows));
  }

  /** No identifier survives deduplication twice. */
  lemma KeepLastDistinct(rows: seq<Row>)
    ensures DistinctIds(KeepLast(rows))
  {
    var kept := KeepLast(rows);
    var idx := KeptIndices(rows, |rows|);
    KeptFacts(rows, |rows|);
    forall a, b | 0 <= a < b < |kept|
      ensures kept[a].canId != kept[b].canId
    {
      assert idx[a] < idx[b] && IsLastOf(rows, idx[a]);
    }
  }

  /** Every identifier survives deduplication, through the last row that holds it. */
  lemma KeepLastIds(rows: seq<Row>)
    ensures IdSet(KeepLast(rows)) == IdSet(rows)
    ensures forall i :: 0 <= i < |rows| && IsLastOf(rows, i) ==> rows[i] in KeepLast(rows)
  {
    var kept := KeepLast(rows);
    var idx := KeptIndices(rows, |rows|);
    KeptFacts(rows, |rows|);
    forall id | id in IdSet(rows)
      ensures id in IdSet(kept)
    {
      var i :| 0 <= i < |rows| && rows[i].canId == id;
      var j := LastOccurrence(rows, i);
      var a :| 0 <= a < |idx| && idx[a] == j;
      assert kept[a].canId == id;
    }
    forall i | 0 <= i < |rows| && IsLastOf(rows, i)
      ensures rows[i] in kept
    {
      var a :| 0 <= a < |idx| && idx[a] == i;
      assert kept[a] == rows[i];
    }
  }

  /** On a table with one row per identifier deduplication changes nothing. */
  lemma DedupIdempotent(rows: seq<Row>)
    requires DistinctIds(rows)
    ensures KeepLast(rows) == rows
  {
    KeptRowsOfDistinct(rows, |rows|);
    assert rows[..|rows|] == rows;
  }

  lemma {:induction false} KeptRowsOfDistinct(rows: seq<Row>, k: nat)
    requires DistinctIds(rows) && k <= |rows|
    ensures KeptRows(rows, k) == rows[..k]
    decreases k
  {
    if k > 0 {
      KeptRowsOfDistinct(rows, k - 1);
      assert IsLastOf(rows, k - 1) by {
        forall j | k - 1 < j < |rows|
          ensures rows[j].canId != rows[k - 1].canId
        {
          assert 0 <= k - 1 < j < |rows|;
        }
      }
      assert rows[..k - 1] + [rows[k - 1]] == rows[..k];
    }
  }

  lemma {:induction false} AtLeastPosition(idx: seq<nat>, a: nat)
    requires a < |idx|
    requires forall x, y :: 0 <= x < y < |idx| ==> idx[x] < idx[y]
    ensures idx[a] >= a
    decreases a
  {
    if a > 0 {
      AtLeastPosition(idx, a - 1);
    }
  }

  /**
   * `handle_overwrite_change`. Checking the box deduplicates the table, keeping
   * the last row per identifier, and rebuilds `msgs`; unchecking changes nothing.
   */
  function HandleOverwriteChange(v: View, checked: bool): (v': View)
    ensures !checked ==> v' == v
    ensures checked ==> v'.rows == KeepLast(v.rows) && v'.msgs == RowIndex(v'.rows)
    ensures checked ==> OneRowPerId(v') && IdSet(v'.rows) == IdSet(v.rows) && |v'.rows| == |IdSet(v.rows)|
  {
    if checked then
      var rows' := KeepLast(v.rows);
      DedupKeepsLastRows(v.rows);
      View(rows', RowIndex(rows'))
    else v
  }

  /**
   * First step of the deduplication pass: group the rows by identifier and mark
   * every row of a group except the last one.
   */
  method MarkDuplicates(rows: seq<Row>) returns (remove: set<nat>)
    ensures forall j: nat :: j in remove <==> j < |rows| && !IsLastOf(rows, j)
  {
    var last: map<string, nat> := map[];
    remove := {};
    for i := 0 to |rows|
      invariant forall id :: id in last ==> last[id] < i && rows[last[id]].canId == id
      invariant forall j :: 0 <= j < i ==> rows[j].canId in last && last[rows[j].canId] >= j
      invariant forall j :: 0 <= j < i ==> (j in remove <==> last[rows[j].canId] != j)
      invariant forall j :: j in remove ==> j < i
    {
      var id := rows[i].canId;
      ghost var before, previous := remove, last;
      if id in last {
        remove := remove + {last[id]};
      }
      last := last[id := i];
      forall j | 0 <= j <= i
        ensures j in remove <==> last[rows[j].canId] != j
      {
        if rows[j].canId == id {
          if j < i {
            assert id in previous && previous[id] >= j;
            assert j in before <==> previous[id] != j;
          }
        } else {
          assert last[rows[j].canId] == previous[rows[j].canId];
          assert id in previous ==> rows[previous[id]].canId == id;
        }
      }
    }
    forall j | 0 <= j < |rows|
      ensures j in remove <==> !IsLastOf(rows, j)
    {
      var id := rows[j].canId;
      if last[id] != j {
        assert j < last[id] && rows[last[id]].canId == id;
      } else {
        forall k | j < k < |rows|
          ensures rows[k].canId != id
        {
          assert last[rows[k].canId] >= k;
        }
      }
    }
  }

  /** The rows at positions `k` and beyond that deduplication keeps, in order. */
  function KeptSuffix(rows: seq<Row>, k: nat): seq<Row>
    requires k <= |rows|
    decreases |rows| - k
  {
    if k == |rows| then [] else (if IsLastOf(rows, k) then [rows[k]] else []) + KeptSuffix(rows, k + 1)
  }

  /** The kept rows before position `k` followed by those from `k` on are all the kept rows. */
  lemma {:induction false} KeptSplit(rows: seq<Row>, k: nat)
    requires k <= |rows|
    ensures KeptRows(rows, k) + KeptSuffix(rows, k) == KeptSuffix(rows, 0)
    decreases k
  {
    if k > 0 {
      KeptSplit(rows, k - 1);
      if IsLastOf(rows, k - 1) {
        assert KeptSuffix(rows, k - 1) == [rows[k - 1]] + KeptSuffix(rows, k);
        assert KeptRows(rows, k) == KeptRows(rows, k - 1) + [rows[k - 1]];
        MoveAcross(KeptRows(rows, k - 1), [rows[k - 1]], KeptSuffix(rows, k), KeptSuffix(rows, 0));
      } else {
        assert KeptSuffix(rows, k - 1) == KeptSuffix(rows, k);
        assert KeptRows(rows, k) == KeptRows(rows, k - 1);
      }
    }
  }

  /** Moving a block from the front of the right part to the back of the left part keeps the whole. */
  lemma MoveAcross(left: seq<Row>, block: seq<Row>, right: seq<Row>, whole: seq<Row>)
    requires left + (block + right) == whole
    ensures (left + block) + right == whole
  {
  }

  /**
   * Second step: delete the marked rows, one `removeRow` at a time from the
   * highest index down. Every row below the one being removed is still at its
   * original index, so each removal deletes the intended row; the outcome is the
   * unmarked rows in their original order.
   */
  method DropMarked(rows: seq<Row>, remove: set<nat>) returns (kept: seq<Row>)
    requires forall j: nat :: j in remove <==> j < |rows| && !IsLastOf(rows, j)
    ensures kept == KeepLast(rows)
  {
    kept := rows;
    var i := |rows|;
    assert kept == rows[..i] + KeptSuffix(rows, i);
    while i > 0
      invariant i <= |rows|
      invariant kept == rows[..i] + KeptSuffix(rows, i)
      decreases i
    {
      i := i - 1;
      assert rows[..i + 1] == rows[..i] + [rows[i]];
      if i in remove {
        assert kept[i] == rows[i];
        kept := kept[..i] + kept[i + 1..];
      }
    }
    KeptSplit(rows, |rows|);
    assert KeptSuffix(rows, |rows|) == [];
  }

  /** Third step: rebuild `msgs` by scanning the remaining rows top to bottom. */
  method RebuildIndex(rows: seq<Row>) returns (msgs: map<string, nat>)
    ensures msgs == RowIndex(rows)
    ensures DistinctIds(rows) ==> forall a :: 0 <= a < |rows| ==> msgs[rows[a].canId] == a
  {
    msgs := map[];
    for i := 0 to |rows|
      invariant msgs == RowIndex(rows[..i])
    {
      assert rows[..i + 1][..i] == rows[..i];
      msgs := msgs[rows[i].canId := i];
    }
    assert rows[..|rows|] == rows;
    if DistinctIds(rows) {
      forall a | 0 <= a < |rows|
        ensures msgs[rows[a].canId] == a
      {
        assert rows[a].canId in IdSet(rows);
        var m := msgs[rows[a].canId];
        assert rows[m].canId == rows[a].canId;
      }
    }
  }

  /**
   * The deduplication pass as the window runs it when the Overwrite box becomes
   * checked: it computes the same table and `msgs` as `HandleOverwriteChange`,
   * with every identifier mapped to the index of its one remaining row.
   */
  method DeduplicateRows(rows: seq<Row>) returns (kept: seq<Row>, msgs: map<string, nat>)
    ensures kept == KeepLast(rows)
    ensures msgs == RowIndex(kept)
    ensures DistinctIds(kept) && msgs.Keys == IdSet(rows)
    ensures forall a :: 0 <= a < |kept| ==> msgs[kept[a].canId] == a
  {
    var remove := MarkDuplicates(rows);
    kept := DropMarked(rows, remove);
    DedupKeepsLastRows(rows);
    msgs := RebuildIndex(kept);
  }

  /** Rows appended and rewritten never move, so a `#` cell is never below its row's position + 1. */
  predicate NumbersAtLeastPosition(rows: seq<Row>) {
    forall i :: 0 <= i < |rows| ==> rows[i].number >= i + 1
  }

  /**
   * Deduplication does not renumber the `#` column: a removed row leaves a gap,
   * but no surviving row's number falls below its new position + 1.
   */
  lemma DedupNumbering(rows: seq<Row>)
    requires NumbersAtLeastPosition(rows)
    ensures NumbersAtLeastPosition(KeepLast(rows))
  {
    var idx := KeptIndices(rows, |rows|);
    KeptFacts(rows, |rows|);
    forall a | 0 <= a < |idx|
      ensures idx[a] >= a
    {
      AtLeastPosition(idx, a);
    }
  }

  /** Rows 0x1, 0x2, 0x1 numbered 1, 2, 3 deduplicate to rows numbered 2 and 3. */
  lemma DedupLeavesGapInNumbers()
    ensures var a := Row(1, "", "0x1", "STD", 0, "", NoCycle, 1);
      var b := Row(2, "", "0x2", "STD", 0, "", NoCycle, 1);
      var c := Row(3, "", "0x1", "STD", 0, "", NoCycle, 2);
      ContiguousNumbers([a, b, c]) && KeepLast([a, b, c]) == [b, c] && !ContiguousNumbers([b, c])
  {
    var a := Row(1, "", "0x1", "STD", 0, "", NoCycle, 1);
    var b := Row(2, "", "0x2", "STD", 0, "", NoCycle, 1);
    var c := Row(3, "", "0x1", "STD", 0, "", NoCycle, 2);
    assert [a, b, c][2].canId == [a, b, c][0].canId;
    assert !IsLastOf([a, b, c], 0);
    assert IsLastOf([a, b, c], 1);
    assert IsLastOf([a, b, c], 2);
    assert KeptRows([a, b, c], 1) == [];
    assert KeptRows([a, b, c], 2) == [b];
    assert KeptRows([a, b, c], 3) == [b] + [c];
    assert !ContiguousNumbers([b, c]) by {
      assert [b, c][0].number != 0 + 1;
    }
  }
}

=== FILE: text.dfy ===
/**
 * Character-level helpers over Python `str` values, modelled as `seq<char>`:
 * decimal digits (`int(text)`), the first digit run of `re.search(r"(\d+)", ...)`,
 * the `in` substring test, Python's `<` on strings and `str.replace(old, "")`.
 */
module Text {
  import opened Wrappers

  predicate IsDigit(c: char) {
    '0' <= c <= '9'
  }

  predicate AllDigits(s: string) {
    forall i :: 0 <= i < |s| ==> IsDigit(s[i])
  }

  predicate NoDigits(s: string) {
    forall i :: 0 <= i < |s| ==> !IsDigit(s[i])
  }

  function DigitValue(c: char): (d: nat)
    requires IsDigit(c)
    ensures d < 10
  {
    (c as int) - ('0' as int)
  }

  function DigitChar(d: nat): (c: char)
    requires d < 10
    ensures IsDigit(c) && DigitValue(c) == d
  {
    (('0' as int) + d) as char
  }

  /** Value of a string of decimal digits, most significant digit first. */
  function DecimalValue(s: string): nat
    requires AllDigits(s)
    decreases |s|
  {
    if |s| == 0 then 0 else 10 * DecimalValue(s[..|s| - 1]) + DigitValue(s[|s| - 1])
  }

  /** The decimal text of `n`, as Python's `str(n)` writes a non-negative integer. */
  function DecimalText(n: nat): (s: string)
    ensures |s| > 0 && AllDigits(s)
    ensures |s| > 1 ==> s[0] != '0'
    decreases n
  {
    if n < 10 then [DigitChar(n)] else DecimalText(n / 10) + [DigitChar(n % 10)]
  }

  lemma {:induction false} DecimalRoundTrip(n: nat)
    ensures DecimalValue(DecimalText(n)) == n
    decreases n
  {
    if n >= 10 {
      var s := DecimalText(n);
      assert s[..|s| - 1] == DecimalText(n / 10);
      DecimalRoundTrip(n / 10);
    }
  }

  /**
   * Python's `int(text)` restricted to an optional sign followed by ASCII digits;
   * None stands for the ValueError it raises on anything else.
   */
  function ParseInt(s: string): (r: Option<int>)
    ensures r.Some? <==>
      (|s| > 0 && AllDigits(s)) ||
      (|s| > 1 && (s[0] == '-' || s[0] == '+') && AllDigits(s[1..]))
    ensures |s| > 0 && AllDigits(s) ==> r == Some(DecimalValue(s))
    ensures |s| > 1 && s[0] == '-' && AllDigits(s[1..]) ==> r == Some(0 - DecimalValue(s[1..]))
    ensures |s| > 1 && s[0] == '+' && AllDigits(s[1..]) ==> r == Some(DecimalValue(s[1..]))
  {
    if |s| > 0 && AllDigits(s) then Some(DecimalValue(s))
    else if |s| > 1 && s[0] == '-' && AllDigits(s[1..]) then Some(0 - DecimalValue(s[1..]) as int)
    else if |s| > 1 && s[0] == '+' && AllDigits(s[1..]) then Some(DecimalValue(s[1..]))
    else None
  }

  /** `int` reads back every integer from its own decimal text, with or without a minus sign. */
  lemma ParseIntRoundTrip(n: nat)
    ensures ParseInt(DecimalText(n)) == Some(n)
    ensures ParseInt("-" + DecimalText(n)) == Some(0 - n as int)
  {
    DecimalRoundTrip(n);
    var t := "-" + DecimalText(n);
    assert t[1..] == DecimalText(n);
    assert !IsDigit(t[0]) && !AllDigits(t);
  }

  /** Index of the first digit of `s`, or `|s|` when there is none. */
  function FirstDigitIndex(s: string): (i: nat)
    ensures i <= |s|
    ensures NoDigits(s[..i])
    ensures i < |s| ==> IsDigit(s[i])
    decreases |s|
  {
    if |s| == 0 then 0
    else if IsDigit(s[0]) then 0
    else
      var j := FirstDigitIndex(s[1..]);
      assert s[..j + 1] == [s[0]] + s[1..][..j];
      j + 1
  }

  /** End of the maximal run of digits that starts at `i`. */
  function DigitRunEnd(s: string, i: nat): (j: nat)
    requires i <= |s|
    ensures i <= j <= |s|
    ensures AllDigits(s[i..j])
    ensures j < |s| ==> !IsDigit(s[j])
    decreases |s| - i
  {
    if i < |s| && IsDigit(s[i]) then DigitRunEnd(s, i + 1) else i
  }

  /** `re.search(r"(\d+)", s).group(1)`, or None when the search finds no match. */
  function FirstDigitRun(s: string): (r: Option<string>)
    ensures r.None? <==> NoDigits(s)
    ensures r.Some? ==> |r.value| > 0 && AllDigits(r.value)
  {
    var i := FirstDigitIndex(s);
    if i == |s| then
      assert s[..i] == s;
      None
    else Some(s[i..DigitRunEnd(s, i)])
  }

  /**
   * The first digit run is determined by its context: whenever `s` splits into a
   * digit-free prefix, a non-empty digit run and a rest not starting with a digit,
   * the search returns exactly that run.
   */
  lemma {:induction false} FirstDigitRunSplit(p: string, d: string, q: string)
    requires NoDigits(p) && |d| > 0 && AllDigits(d)
    requires |q| == 0 || !IsDigit(q[0])
    ensures FirstDigitRun(p + d + q) == Some(d)
  {
    var s := p + d + q;
    assert forall k :: 0 <= k < |p| ==> s[k] == p[k];
    assert forall k :: 0 <= k < |d| ==> s[|p| + k] == d[k];
    var i := FirstDigitIndex(s);
    assert i == |p| by {
      assert IsDigit(s[|p|]);
      assert forall k :: 0 <= k < i ==> s[..i][k] == s[k];
    }
    var j := DigitRunEnd(s, i);
    assert j == |p| + |d| by {
      assert forall k :: i <= k < j ==> s[i..j][k - i] == s[k];
      assert |q| > 0 ==> s[|p| + |d|] == q[0];
    }
    assert s[i..j] == d;
  }

  /** Python's `sub in s`. */
  predicate Contains(s: string, sub: string)
    decreases |s|
  {
    (|sub| <= |s| && s[..|sub|] == sub) || (|s| > 0 && Contains(s[1..], sub))
  }

  /** `sub` occurs in `s` starting at index `i`. */
  predicate OccursAt(s: string, sub: string, i: int) {
    0 <= i && i + |sub| <= |s| && s[i..i + |sub|] == sub
  }

  lemma {:induction false} ContainsAt(s: string, sub: string, i: nat)
    requires OccursAt(s, sub, i)
    ensures Contains(s, sub)
    decreases i
  {
    if i > 0 {
      assert s[1..][i - 1..i - 1 + |sub|] == s[i..i + |sub|];
      ContainsAt(s[1..], sub, i - 1);
    }
  }

  lemma {:induction false} ContainsWitness(s: string, sub: string) returns (i: nat)
    requires Contains(s, sub)
    ensures OccursAt(s, sub, i)
    decreases |s|
  {
    if |sub| <= |s| && s[..|sub|] == sub {
      i := 0;
    } else {
      var k := ContainsWitness(s[1..], sub);
      assert s[1..][k..k + |sub|] == s[k + 1..k + 1 + |sub|];
      i := k + 1;
    }
  }

  /** `Contains` is exactly "occurs at some position". */
  lemma ContainsIff(s: string, sub: string)
    ensures Contains(s, sub) <==> exists i :: OccursAt(s, sub, i)
  {
    if Contains(s, sub) {
      var i := ContainsWitness(s, sub);
    }
    if exists i :: OccursAt(s, sub, i) {
      var i :| OccursAt(s, sub, i);
      ContainsAt(s, sub, i);
    }
  }

  /** Python's `a < b` on strings: lexicographic by code point, a proper prefix is smaller. */
  predicate LexLess(a: string, b: string)
    decreases |a|
  {
    if |b| == 0 then false
    else if |a| == 0 then true
    else if a[0] != b[0] then a[0] < b[0]
    else LexLess(a[1..], b[1..])
  }

  lemma {:induction false} LexLessIrreflexive(a: string)
    ensures !LexLess(a, a)
    decreases |a|
  {
    if |a| > 0 {
      LexLessIrreflexive(a[1..]);
    }
  }

  lemma {:induction false} LexLessAsymmetric(a: string, b: string)
    requires LexLess(a, b)
    ensures !LexLess(b, a)
    decreases |a|
  {
    if |a| > 0 && a[0] == b[0] {
      LexLessAsymmetric(a[1..], b[1..]);
    }
  }

  lemma {:induction false} LexLessTransitive(a: string, b: string, c: string)
    requires LexLess(a, b) && LexLess(b, c)
    ensures LexLess(a, c)
    decreases |a|
  {
    if |a| > 0 && a[0] == b[0] && b[0] == c[0] {
      LexLessTransitive(a[1..], b[1..], c[1..]);
    }
  }

  lemma {:induction false} LexLessTotal(a: string, b: string)
    requires a != b
    ensures LexLess(a, b) || LexLess(b, a)
    decreases |a|
  {
    if |a| > 0 && |b| > 0 && a[0] == b[0] {
      assert a == [a[0]] + a[1..] && b == [b[0]] + b[1..];
      LexLessTotal(a[1..], b[1..]);
    }
  }

  /**
   * Python's `s.replace(pat, "")`: occurrences are removed left to right and do not
   * overlap; the scan resumes after each removed occurrence.
   */
  function RemoveAll(s: string, pat: string): (r: string)
    requires |pat| > 0
    ensures |r| <= |s|
    decreases |s|
  {
    if |s| < |pat| then s
    else if s[..|pat|] == pat then RemoveAll(s[|pat|..], pat)
    else [s[0]] + RemoveAll(s[1..], pat)
  }

  /** Removing a pattern whose last character never occurs leaves the string unchanged. */
  lemma {:induction false} RemoveAllAbsent(s: string, pat: string)
    requires |pat| > 0
    requires forall i :: 0 <= i < |s| ==> s[i] != pat[|pat| - 1]
    ensures RemoveAll(s, pat) == s
    decreases |s|
  {
    if |s| >= |pat| {
      assert s[..|pat|][|pat| - 1] == s[|pat| - 1];
      RemoveAllAbsent(s[1..], pat);
      assert s == [s[0]] + s[1..];
    }
  }
}

=== FILE: window.dfy ===
/**
 * The configuration window as a state machine: the `running` flag guarded by
 * `start_receiving` / `stop_receiving`, the Overwrite box, the per-identifier
 * tracker and the message table. A frame arriving on the bus is one call of
 * `ReceiveFrame`; the receive thread and the signal that carries the record to
 * the table are collapsed into that call.
 */
module Window {
  import opened Hex
  import opened Frames
  import opened Table

  datatype ConfigWindow = ConfigWindow(running: bool, overwrite: bool, tracker: Tracker, view: View)

  /** A new window: not receiving, Overwrite checked, no identifiers tracked, empty table. */
  const Initial := ConfigWindow(false, true, EmptyTracker, EmptyView)

  /** `start_receiving`: sets `running`; a second start while running starts no second receive loop. */
  function StartReceiving(w: ConfigWindow): (w': ConfigWindow)
    ensures w'.running
    ensures w'.overwrite == w.overwrite && w'.tracker == w.tracker && w'.view == w.view
    ensures w.running ==> w' == w
  {
    if !w.running then w.(running := true) else w
  }

  /** `stop_receiving`: clears `running`; safe to call when already stopped. */
  function StopReceiving(w: ConfigWindow): (w': ConfigWindow)
    ensures !w'.running
    ensures w'.overwrite == w.overwrite && w'.tracker == w.tracker && w'.view == w.view
    ensures !w.running ==> w' == w
  {
    w.(running := false)
  }

  /**
   * One frame taken off the bus by the receive loop: its record is built with the
   * current Overwrite state and placed in the table. `stamp` renders a timestamp
   * as local time. While the window is not running no frame is processed.
   */
  function ReceiveFrame(w: ConfigWindow, f: RawFrame, stamp: real -> string): (w': ConfigWindow)
    ensures !w.running ==> w' == w
    ensures w'.running == w.running && w'.overwrite == w.overwrite
    ensures w.running ==> |w'.view.rows| == |w.view.rows| || |w'.view.rows| == |w.view.rows| + 1
    ensures w.running ==> w'.tracker == Observe(w.tracker, CanId(f), f.timestamp).tracker
    ensures w.running && !w.overwrite ==>
      var o := Observe(w.tracker, CanId(f), f.timestamp);
      && w'.view.rows == w.view.rows + [Row(|w.view.rows| + 1, stamp(f.timestamp), CanId(f), TypeTag(f.isFd), f.dlc,
                                            RenderPayload(f.data), o.cycle, o.count)]
      && w'.view.msgs == w.view.msgs
  {
    if !w.running then w
    else
      var r := ReceiveRecord(w.tracker, f, stamp(f.timestamp), w.overwrite);
      w.(tracker := r.tracker, view := HandleMessage(w.view, r.record))
  }

  /** The Overwrite box changes state; checking it deduplicates the table. */
  function SetOverwrite(w: ConfigWindow, checked: bool): (w': ConfigWindow)
    ensures w'.overwrite == checked
    ensures w'.running == w.running && w'.tracker == w.tracker
    ensures checked == w.overwrite ==> w' == w
    ensures !checked ==> w'.view == w.view
    ensures checked && !w.overwrite ==>
      OneRowPerId(w'.view) && IdSet(w'.view.rows) == IdSet(w.view.rows) && |w'.view.rows| == |IdSet(w.view.rows)|
    ensures checked && !w.overwrite ==>
      w'.view.rows == KeepLast(w.view.rows) && w'.view.msgs == RowIndex(w'.view.rows)
  {
    if checked == w.overwrite then w
    else w.(overwrite := checked, view := HandleOverwriteChange(w.view, checked))
  }

  /** Every shown identifier is tracked, and its last row shows the tracked count. */
  predicate CountsShown(rows: seq<Row>, counts: map<string, nat>) {
    forall i :: 0 <= i < |rows| ==>
      rows[i].canId in counts &&
      (IsLastOf(rows, i) ==> rows[i].count == counts[rows[i].canId])
  }

  /** `counts'` differs from `counts` at most at `id`, where it holds `n`. */
  predicate CountsBumped(counts: map<string, nat>, counts': map<string, nat>, id: string, n: nat) {
    && id in counts' && counts'[id] == n
    && forall k :: k in counts && k != id ==> k in counts' && counts'[k] == counts[k]
  }

  lemma AppendKeepsCountsShown(rows: seq<Row>, counts: map<string, nat>, counts': map<string, nat>, row: Row)
    requires CountsShown(rows, counts)
    requires CountsBumped(counts, counts', row.canId, row.count)
    ensures CountsShown(rows + [row], counts')
  {
    var rows' := rows + [row];
    forall i | 0 <= i < |rows|
      ensures rows'[i].canId in counts'
      ensures IsLastOf(rows', i) ==> rows'[i].count == counts'[rows'[i].canId]
    {
      assert rows'[i] == rows[i];
      if IsLastOf(rows', i) {
        assert rows'[|rows|].canId == row.canId;
        assert forall j :: i < j < |rows| ==> rows'[j] == rows[j];
        assert IsLastOf(rows, i);
      }
    }
  }

  lemma UpdateKeepsCountsShown(rows: seq<Row>, counts: map<string, nat>, counts': map<string, nat>, k: nat, row: Row)
    requires CountsShown(rows, counts) && DistinctIds(rows)
    requires k < |rows| && row.canId == rows[k].canId
    requires CountsBumped(counts, counts', row.canId, row.count)
    ensures CountsShown(rows[k := row], counts')
  {
    var rows' := rows[k := row];
    forall i | 0 <= i < |rows'| && i != k
      ensures rows'[i].canId in counts'
      ensures IsLastOf(rows', i) ==> rows'[i].count == counts'[rows'[i].canId]
    {
      assert rows'[i] == rows[i];
      assert IsLastOf(rows', i) ==> IsLastOf(rows, i);
    }
  }

  /**
   * What every reachable window satisfies: the two tracker tables agree, `msgs`
   * points at rows holding its identifiers, in Overwrite mode there is one row per
   * identifier, counts shown are the tracked counts, and no `#` cell is below its
   * row's position + 1.
   */
  predicate Inv(w: ConfigWindow) {
    && KeysAgree(w.tracker)
    && MsgsValid(w.view)
    && (w.overwrite ==> OneRowPerId(w.view))
    && CountsShown(w.view.rows, w.tracker.counts)
    && NumbersAtLeastPosition(w.view.rows)
  }

  lemma InitialInv()
    ensures Inv(Initial) && !Initial.running && Initial.overwrite && Initial.view.rows == []
  {
  }

  lemma StartStopPreserveInv(w: ConfigWindow)
    requires Inv(w)
    ensures Inv(StartReceiving(w)) && Inv(StopReceiving(w))
  {
  }

  /** A received frame leaves every shown identifier tracked, its last row showing the tracked count. */
  lemma ReceiveFrameKeepsCountsShown(w: ConfigWindow, f: RawFrame, stamp: real -> string)
    requires Inv(w) && w.running
    ensures CountsShown(ReceiveFrame(w, f, stamp).view.rows, ReceiveFrame(w, f, stamp).tracker.counts)
  {
    var r := ReceiveRecord(w.tracker, f, stamp(f.timestamp), w.overwrite);
    var id := r.record.canId;
    var counts, counts' := w.tracker.counts, r.tracker.counts;
    assert CountsBumped(counts, counts', id, r.record.count) by {
      forall k | k in counts && k != id
        ensures k in counts' && counts'[k] == counts[k]
      {
        assert k in counts - {id};
      }
    }
    if w.overwrite && id in w.view.msgs {
      var k := w.view.msgs[id];
      UpdateKeepsCountsShown(w.view.rows, counts, counts', k, UpdateRow(w.view.rows[k], r.record));
    } else {
      AppendKeepsCountsShown(w.view.rows, counts, counts', SetRow(|w.view.rows|, r.record));
    }
  }

  /** A received frame keeps the window invariant, in both modes. */
  lemma ReceiveFramePreservesInv(w: ConfigWindow, f: RawFrame, stamp: real -> string)
    requires Inv(w)
    ensures Inv(ReceiveFrame(w, f, stamp))
  {
    if w.running {
      var r := ReceiveRecord(w.tracker, f, stamp(f.timestamp), w.overwrite);
      HandleMessageKeepsMsgsValid(w.view, r.record);
      HandleMessageKeepsNumbering(w.view, r.record);
      if w.overwrite {
        HandleMessageKeepsOneRowPerId(w.view, r.record);
      }
      ReceiveFrameKeepsCountsShown(w, f, stamp);
    }
  }

  /** Changing the Overwrite box keeps the window invariant. */
  lemma SetOverwritePreservesInv(w: ConfigWindow, checked: bool)
    requires Inv(w)
    ensures Inv(SetOverwrite(w, checked))
  {
    if checked && !w.overwrite {
      var rows := w.view.rows;
      var kept := KeepLast(rows);
      var idx := KeptIndices(rows, |rows|);
      KeptFacts(rows, |rows|);
      DedupNumbering(rows);
      assert CountsShown(kept, w.tracker.counts) by {
      forall a | 0 <= a < |kept|
        ensures kept[a].canId in w.tracker.counts
        ensures IsLastOf(kept, a) ==> kept[a].count == w.tracker.counts[kept[a].canId]
      {
        assert kept[a] == rows[idx[a]] && IsLastOf(rows, idx[a]);
      }
      }
    }
  }

  /** The window after the receive loop has taken `frames` off the bus, in order. */
  function Feed(w: ConfigWindow, frames: seq<RawFrame>, stamp: real -> string): ConfigWindow
    decreases |frames|
  {
    if |frames| == 0 then w
    else ReceiveFrame(Feed(w, frames[..|frames| - 1], stamp), frames[|frames| - 1], stamp)
  }

  /**
   * The row for `id` shows the latest frame with that identifier, how many frames
   * carried it, and the delta in milliseconds to the frame before it (blank when
   * there was only one).
   */
  predicate ShowsLatest(r: Row, frames: seq<RawFrame>, id: string, stamp: real -> string)
    requires Occurrences(frames, id) > 0
  {
    var f := LastFrame(frames, id);
    && r.canId == id
    && r.timestamp == stamp(f.timestamp)
    && r.msgType == TypeTag(f.isFd)
    && r.length == f.dlc
    && r.data == RenderPayload(f.data)
    && r.count == Occurrences(frames, id)
    && r.cycleTime == (if Occurrences(frames, id) == 1 then NoCycle
                       else CycleMs((f.timestamp - PrevFrame(frames, id).timestamp) * 1000.0))
  }

  /** The state a started window in Overwrite mode reaches after `frames`. */
  predicate OverwriteRunState(w: ConfigWindow, frames: seq<RawFrame>, stamp: real -> string) {
    && w.running && w.overwrite
    && w.tracker == ObserveAll(frames)
    && OneRowPerId(w.view)
    && ContiguousNumbers(w.view.rows)
    && w.view.msgs.Keys == SeenIds(frames)
    && (forall id :: id in w.view.msgs ==> ShowsLatest(w.view.rows[w.view.msgs[id]], frames, id, stamp))
  }

  /** One more frame in Overwrite mode: the frame's own row shows it, with the grown count and the delta to the frame before. */
  lemma OverwriteRunOwnRow(w: ConfigWindow, frames: seq<RawFrame>, f: RawFrame, stamp: real -> string)
    requires OverwriteRunState(w, frames, stamp)
    ensures var w' := ReceiveFrame(w, f, stamp);
      && CanId(f) in w'.view.msgs
      && w'.view.msgs[CanId(f)] < |w'.view.rows|
      && ShowsLatest(w'.view.rows[w'.view.msgs[CanId(f)]], frames + [f], CanId(f), stamp)
  {
    var id := CanId(f);
    var w' := ReceiveFrame(w, f, stamp);
    var r := ReceiveRecord(w.tracker, f, stamp(f.timestamp), true);
    assert w'.view == HandleMessage(w.view, r.record);
    var row := w'.view.rows[w'.view.msgs[id]];
    assert Shows(row, r.record) && row.canId == id;
    RecordShowsLatest(row, frames, f, stamp);
  }

  /** A row showing the record of a frame that follows `frames` shows that identifier's latest frame. */
  lemma RecordShowsLatest(row: Row, frames: seq<RawFrame>, f: RawFrame, stamp: real -> string)
    requires Shows(row, ReceiveRecord(ObserveAll(frames), f, stamp(f.timestamp), true).record)
    requires row.canId == CanId(f)
    ensures Occurrences(frames + [f], CanId(f)) > 0 && ShowsLatest(row, frames + [f], CanId(f), stamp)
  {
    RecordAfterHistory(frames, f, stamp(f.timestamp), true);
    var rec := ReceiveRecord(ObserveAll(frames), f, stamp(f.timestamp), true).record;
    assert rec.timestamp == stamp(f.timestamp) && rec.msgType == TypeTag(f.isFd);
    assert rec.length == f.dlc && rec.data == RenderPayload(f.data);
  }

  /** A row showing the latest frame of `id` keeps doing so when a frame with another identifier arrives. */
  lemma ShowsLatestSnoc(r: Row, frames: seq<RawFrame>, f: RawFrame, id: string, stamp: real -> string)
    requires Occurrences(frames, id) > 0 && ShowsLatest(r, frames, id, stamp)
    requires id != CanId(f)
    ensures Occurrences(frames + [f], id) > 0 && ShowsLatest(r, frames + [f], id, stamp)
  {
    HistorySnoc(frames, f);
  }

  /** One more frame in Overwrite mode: the rows of other identifiers still show their latest frames. */
  lemma OverwriteRunOtherRow(w: ConfigWindow, frames: seq<RawFrame>, f: RawFrame, stamp: real -> string, other: string)
    requires OverwriteRunState(w, frames, stamp)
    requires other in ReceiveFrame(w, f, stamp).view.msgs && other != CanId(f)
    ensures var w' := ReceiveFrame(w, f, stamp);
      && w'.view.msgs[other] < |w'.view.rows|
      && ShowsLatest(w'.view.rows[w'.view.msgs[other]], frames + [f], other, stamp)
  {
    HistorySnoc(frames, f);
    var w' := ReceiveFrame(w, f, stamp);
    var r := ReceiveRecord(w.tracker, f, stamp(f.timestamp), true);
    assert w'.view == HandleMessage(w.view, r.record);
    assert w'.view.msgs[other] == w.view.msgs[other];
    assert w'.view.rows[w'.view.msgs[other]] == w.view.rows[w.view.msgs[other]];
    ShowsLatestSnoc(w.view.rows[w.view.msgs[other]], frames, f, other, stamp);
  }

  /** One more frame in Overwrite mode keeps the run state, with the frame added to the history. */
  lemma OverwriteRunStep(w: ConfigWindow, frames: seq<RawFrame>, f: RawFrame, stamp: real -> string)
    requires OverwriteRunState(w, frames, stamp)
    ensures OverwriteRunState(ReceiveFrame(w, f, stamp), frames + [f], stamp)
  {
    var id := CanId(f);
    ObserveAfterHistory(frames, f);
    TrackerReflectsHistory(frames);
    HistorySnoc(frames, f);
    var r := ReceiveRecord(w.tracker, f, stamp(f.timestamp), true);
    HandleMessageKeepsOneRowPerId(w.view, r.record);
    HandleMessageKeepsNumbering(w.view, r.record);
    assert id in w.view.msgs <==> Occurrences(frames, id) > 0;
    var w' := ReceiveFrame(w, f, stamp);
    OverwriteRunOwnRow(w, frames, f, stamp);
    forall other | other in w'.view.msgs && other != id
      ensures ShowsLatest(w'.view.rows[w'.view.msgs[other]], frames + [f], other, stamp)
    {
      OverwriteRunOtherRow(w, frames, f, stamp, other);
    }
  }

  lemma {:induction false} OverwriteRunInvariant(frames: seq<RawFrame>, stamp: real -> string)
    ensures OverwriteRunState(Feed(StartReceiving(Initial), frames, stamp), frames, stamp)
    decreases |frames|
  {
    if |frames| > 0 {
      var n := |frames| - 1;
      assert frames == frames[..n] + [frames[n]];
      OverwriteRunInvariant(frames[..n], stamp);
      OverwriteRunStep(Feed(StartReceiving(Initial), frames[..n], stamp), frames[..n], frames[n], stamp);
    }
  }

  /**
   * A started window left in Overwrite mode, after any sequence of frames: one
   * row per identifier seen, numbered 1..N; every identifier's row shows its
   * latest frame and the number of frames seen for it.
   */
  lemma OverwriteRunShowsLatest(frames: seq<RawFrame>, stamp: real -> string)
    ensures var w := Feed(StartReceiving(Initial), frames, stamp);
      && |w.view.rows| == |SeenIds(frames)|
      && OneRowPerId(w.view)
      && ContiguousNumbers(w.view.rows)
      && (forall id :: id in SeenIds(frames) ==>
            id in w.view.msgs && ShowsLatest(w.view.rows[w.view.msgs[id]], frames, id, stamp))
  {
    OverwriteRunInvariant(frames, stamp);
    var w := Feed(StartReceiving(Initial), frames, stamp);
    DistinctIdsCount(w.view.rows);
  }
}

=== FILE: wrappers.dfy ===
/** The optional value used wherever the source returns None or raises and recovers. */
module Wrappers {

  datatype Option<+T> = None | Some(value: T)
}
